=== FILE: README.md ===
# match_up: interest and match core, in Dafny

This project models the core of the match_up dating app (a Django project). Users
like or pass on each other's profiles. Each signal is one row per ordered pair
`(from_user, to_user)`. When a newly created like finds the reverse like, a
post-save hook stores a `Match` for the pair in id order, using get-or-create.
Around this sit the read queries:

- the discovery feed, which leaves out the user's own profile and everyone the
  user has already liked or passed;
- the matches page;
- the liked-profiles page.

The model also covers the validation and storage rules of `Profile`, `Preference`
and `PreferenceForm`.

The database is immutable data (`ConnectionModels.Db`):

- the profile directory is a sequence of profile rows;
- the `Like` table is a map from `(from_user, to_user)` to `like`/`dislike`, so
  `unique_together` holds by construction;
- the `Match` table is a sequence of rows in insertion order.

Requests are pure functions from a database to a new database and an answer
(`Views.Response`). The clock is a parameter `now` (an abstract integer timestamp).
The database's random ordering is a parameter `randomKey`: `order_by('?')` sorts
the rows on a random key drawn per row. Every `order_by` is a stable sort on an
integer key (`Ordering.SortBy`).

Modules follow the source files:

| module | file | source |
|---|---|---|
| `Profiles` | profiles.dfy | dating/models.py, `Profile` |
| `Preferences` | preferences.dfy | dating/models.py, `Preference` |
| `PreferenceForm` | preference_form.dfy | dating/forms.py |
| `ConnectionModels` | connection_models.dfy | connections/models.py |
| `Signals` | signals.dfy | connections/signals.py |
| `Services` | services.dfy | connections/services.py |
| `Views` | views.dfy | connections/views.py |
| `ConnectionProperties` | connection_properties.dfy | properties across requests |

`Text` (text.dfy) holds Python's `split`, `join` and `strip`. `Ordering`
(ordering.dfy) holds the sort, and `Results` (results.dfy) holds `Option` and
`Result`.

Where the source's own comments promise more than its code does, the model follows
the code:

- The like view's docstring (connections/views.py:54) and the comment at
  connections/views.py:100 expect a match whenever a like meets a like. The hook
  acts only on a newly inserted like row, so a pass that is later flipped to a
  like never creates a match. See Findings.
- The docstrings of `get_discoverable_profiles` (connections/services.py:10-11) and
  of the discovery view (connections/views.py:18-20) speak of filtering by
  preferences. The function accepts a `preferences` argument and never reads it,
  so the feed is exclusion-only (`Services.Discover`).
- The preference form refuses every selection of three genders, although the
  column's own default is all three. See Findings.

## Model

| member | source | states |
|---|---|---|
| `Ordering.SortBy` | connections/services.py:40-44 | the ordering step returns a permutation of its input, sorted by the key (newest first or by the random key) |
| `Text.Split` | dating/models.py:103 | `split(',')` always yields at least one piece, no piece contains the separator, and joining the pieces back gives the original string |
| `Text.SplitJoin` | dating/forms.py:82-84 | splitting a comma-join of separator-free parts gives back exactly those parts |
| `Text.StripSpec` | dating/models.py:103 | `strip()` returns the original with only whitespace cut from either end, and the result neither starts nor ends with whitespace |
| `Text.StripUntrimmed` | dating/models.py:103 | a string with no whitespace at either end is unchanged by `strip()` |
| `Profiles.ProfileErrors` | dating/models.py:18-23 | the profile form (`ProfileCreate`, dating/views.py) accepts a profile exactly when age is in 18..99, gender is M/F/O, bio has 10..500 characters, location has at most 100 and interests at most 250; a blank required field reports only that it is blank |
| `Profiles.CompleteProfile` | dating/models.py:36-46 | only `is_profile_complete` changes, and it is true exactly when bio, age, gender, location, interests and photo are all truthy |
| `Profiles.CompleteProfileIdempotent` | dating/models.py:36-46 | completing a profile twice gives the same row as completing it once |
| `Profiles.ValidProfileCompleteness` | dating/models.py:18-22 | for a profile that passes validation, completeness depends only on location, interests and photo |
| `Profiles.Find` | connections/views.py:65 | the lookup behind `user.profile` and `get_object_or_404(Profile, id=...)`: it returns a profile of the directory that has the key asked for, and reports absence exactly when no profile has that key |
| `Profiles.FindUnique` | dating/models.py:16-17 | when no two profiles share the key, looking up a profile's key returns that very profile |
| `Profiles.ProfileOfUnique` | dating/models.py:16-17 | with one profile per user, the lookup by user returns that user's profile |
| `Profiles.ProfileByIdUnique` | dating/models.py:16-17 | with unique keys, the lookup by key returns the profile with that key |
| `Preferences.FieldErrors` | dating/models.py:62-73 | the column validators pass exactly when both ages are in 18..99 and the gender string has 1 to 10 characters; a blank string reports only that it is blank |
| `Preferences.FullCleanExcept` | dating/models.py:89-94 | `full_clean(exclude)` reports the age-order error exactly when `min_age >= max_age`, whatever is excluded, reports nothing exactly when the band is sound and every column not excluded passes its validators, reports every error of every column not excluded, and reports no other error |
| `Preferences.Clean` | dating/models.py:89-94 | `clean` fails exactly when `min_age >= max_age` |
| `Preferences.FullClean` | dating/models.py:89-99 | `full_clean()` reports every column's validator errors plus the age-order error, which appears exactly when `min_age >= max_age`, whatever the other fields hold |
| `Preferences.Save` | dating/models.py:62-74 | a preference is stored exactly when 18 <= min_age < max_age <= 99 and the gender string has 1 to 10 characters; otherwise the errors are non-empty and include the age-order error when the band is empty |
| `Preferences.DefaultStorable` | dating/models.py:62-74 | the defaults (18, 99, `'M,F,O'`) form a storable preference |
| `Preferences.PreferredGendersList` | dating/models.py:101-103 | the list has one element per comma-separated piece of the stored string, in order; each element is its piece with the surrounding whitespace stripped, and none contains a comma |
| `Preferences.GendersListRoundTrip` | dating/models.py:101-103 | for any non-empty list of codes from M/F/O, the list read back from their comma-join is the same list |
| `PreferenceForm.CleanNumber` | dating/forms.py:27-40 | a number field (either age, or the distance) cleans to a value exactly when a whole number of at least 0 is given (absent, empty or non-numeric input gives none), the field Django derives from a `PositiveIntegerField`; the 18..99 age bounds are left to the model, and the widgets' `min`/`max` only hint to the browser |
| `PreferenceForm.CleanGenders` | dating/forms.py:20-25 | the gender field is clean exactly when at least one code is selected and every code is M, F or O; repeats are not refused |
| `PreferenceForm.Cleaned` | dating/forms.py:27-29 | `cleaned_data` holds each age and the distance exactly when it was given as a whole number that is not negative, with that value, and holds the selection only when it is non-empty and made of choices |
| `PreferenceForm.FieldErrors` | dating/forms.py:20-40 | the form fields report nothing exactly when both ages are given and not negative, at least one valid code is selected and the distance is empty or a whole number that is not negative (text that is not a number is an error); the required error appears exactly for an empty selection |
| `PreferenceForm.Clean` | dating/forms.py:57-77 | `clean` reports the age-band error exactly when both ages are present and non-zero with min >= max; otherwise it reports the missing-gender error exactly when no gender survived field cleaning |
| `PreferenceForm.PostClean` | dating/models.py:62-94 | when the form's own checks pass, the model's `full_clean` runs on the instance holding the submitted ages and distance and the selection as it reaches the `preferred_genders` column; once `clean` has refused the age band, `min_age` is not validated and the stored minimum alone decides the model's band error |
| `PreferenceForm.TooLongSelectionReported` | dating/models.py:70-73 | a selection the checkbox field accepts reaches the column, so a rendering longer than 10 characters draws the column's length error |
| `PreferenceForm.ValidateAs` | dating/forms.py:57-77 | `is_valid()` holds exactly when both ages are given with 18 <= min < max <= 99, the selection is non-empty and made of choices, the distance is empty or a whole number that is not negative, and the selection as rendered for the column has 1 to 10 characters; an empty selection and an empty band are always refused, each with its own error |
| `PreferenceForm.Validate` | dating/forms.py:20-29 | as written, `is_valid()` holds exactly when 18 <= min < max <= 99, one or two valid codes are selected, and the distance is empty or not negative; three or more codes draw the column's length error |
| `PreferenceForm.ReprOfCodesLength` | dating/forms.py:20-25 | `str(list)` of n selected codes has 5n characters |
| `PreferenceForm.ValidateCorrected` | dating/forms.py:79-86 | as intended, validation checks the comma-joined string that is stored, so a selection validates exactly when its join fits in 10 characters, and whatever validates also saves |
| `PreferenceForm.StoredGenders` | dating/forms.py:82-86 | a non-empty selection is stored comma-joined, and an empty one as `'M,F,O'` |
| `PreferenceForm.Save` | dating/forms.py:79-90 | the save succeeds exactly when the ages form a band within 18..99 and the stored gender string has 1 to 10 characters; the saved row carries the form's ages, its distance, and its selection joined by commas (or `'M,F,O'` when empty) |
| `PreferenceForm.InitialGenders` | dating/forms.py:48-55 | the checkboxes are pre-filled exactly for a stored row with a non-empty gender string, and then with that row's list of codes |
| `PreferenceForm.SaveThenReopen` | dating/forms.py:48-90 | a form that validates saves, and reopening the saved row pre-fills exactly the submitted selection |
| `PreferenceForm.CorrectedSaveThenReopen` | dating/forms.py:48-90 | with the corrected validation too, a form that validates saves and reopens with exactly the submitted selection |
| `PreferenceForm.AllThreeGendersRefused` | dating/forms.py:20-25 | as written, ages 20 and 30 with all three boxes checked are refused, with the column's length error as the only error |
| `PreferenceForm.NonNumericDistanceRefused` | dating/models.py:75-79 | the optional distance still goes through the derived integer form field, so text that is not a whole number makes `is_valid()` false with the distance error, whatever else was submitted |
| `PreferenceForm.CheckboxSelectionsAcceptedWhenCorrected` | dating/forms.py:20-25 | with the corrected validation, every selection the checkboxes can submit, with a sound age band, validates and saves |
| `PreferenceForm.JoinOfCodesLength` | dating/forms.py:82-84 | the comma-join of n codes has 2n - 1 characters |
| `PreferenceForm.DistinctCodesAtMostThree` | dating/forms.py:20-25 | a selection without repeats holds at most the three codes |
| `ConnectionModels.ParseAction` | connections/models.py:8-17 | a parsed action code is one of the two choices and stores back as the same code |
| `ConnectionModels.ActionCodeRoundTrip` | connections/models.py:8-17 | every action stores as a choice code that fits the column and reads back as itself |
| `ConnectionModels.SaveLike` | connections/models.py:20-34 | a self-like is refused; an insert fails exactly on an existing pair; a successful save sets that pair's action and leaves every other row unchanged |
| `ConnectionModels.SaveLikeNoSelfLikes` | connections/models.py:31-34 | saving never introduces a row from a user to themselves |
| `ConnectionModels.SaveMatch` | connections/models.py:53-57 | saving keeps the same two users and, when both ids are set, stores them in id order |
| `ConnectionModels.SaveMatchSymmetric` | connections/models.py:45-57 | saving `Match(a, b)` and `Match(b, a)` store the same row |
| `ConnectionModels.OtherUser` | connections/models.py:59-60 | returns `user2` for `user1` and `user1` for anyone else, including a non-member |
| `ConnectionModels.OtherUserOfMember` | connections/models.py:59-60 | for a member of a two-user match the result is the other member, and asking from that side gives the member back |
| `ConnectionModels.GetOrCreateMatch` | connections/signals.py:30-35 | an existing row is returned untouched; for ordered ids a row for the pair exists afterwards; at most one row is appended and it is active and made now; the table stays canonical |
| `ConnectionModels.GetOrCreateIdempotent` | connections/signals.py:30-35 | a second get-or-create for the same ordered pair changes nothing |
| `ConnectionModels.Targets` | connections/services.py:26-38 | the ids selected are exactly the targets of the user's rows with the given action |
| `Signals.OnLikeSaved` | connections/signals.py:6-35 | the hook changes nothing unless the row was just created as a `like` and the reverse like exists; then a match for the pair in id order exists; only the match table changes, by at most one active row with user1 < user2 |
| `Signals.OnLikeSavedIdempotent` | connections/signals.py:30-35 | running the hook twice for the same row leaves the database as running it once |
| `Signals.FirstLikeNoMatch` | connections/signals.py:16-23 | with no reverse row, a like never creates a match |
| `Services.ExcludeUsers` | connections/services.py:24-38 | an `exclude` stage keeps exactly the profiles whose user is not excluded, each as often as the input holds it, and adds nothing |
| `Services.ChainedExclusions` | connections/services.py:24-38 | the three `exclude` stages act as one stage that excludes the union of the three sets |
| `Services.ArrangeFeed` | connections/services.py:40-44 | the feed is a permutation of the filtered profiles, and newest first for any order other than `'random'` |
| `Services.Discover` | connections/services.py:8-46 | a profile is in the feed exactly when it is in the directory, is not the requester's, and the requester has no like or pass row for its user; each such profile appears as often as in the directory; preferences play no part |
| `Services.FeedIgnoresOthersLikes` | connections/services.py:26-38 | rows sent by other users, including rows sent to the requester, never change the requester's feed |
| `Views.IsMatch` | connections/views.py:119-125 | `_check_match` holds exactly when some active match has the first user as a member and the second as that member's other user |
| `Views.Target` | connections/views.py:57-71 | a requester without a profile, an unknown key and the requester's own profile are the three errors, each reported exactly in its case; otherwise the answer is the profile with the given key, which belongs to someone else |
| `Views.LikeProfile` | connections/views.py:57-108 | errors change nothing; on success the pair's row is a `like` and nothing else in the like table changes; a repeat is reported as such; `is_match` is the active-match check after the write; a pair that already had a row gets no new match, a match is added only when the reverse like exists, and a first like meeting the reverse like leaves the pair's match row |
| `Views.LikeProfileCorrected` | connections/views.py:88-91 | as `LikeProfile`, but a flip from pass to like also triggers the hook, so a match exists whenever the reverse like does |
| `Views.PassProfile` | connections/views.py:133-176 | errors change nothing; on success the pair's row is a `dislike`, a repeat is reported as such, and the match table is never touched |
| `Views.ActiveMatchesOf` | connections/views.py:208-218 | the rows kept are exactly the active matches in which the user is `user1` or `user2` |
| `Views.WithPartnerProfiles` | connections/views.py:226-236 | each match is paired with the other user's profile and matches whose partner has no profile are skipped; the listed matches are a subsequence of the input, so the order is kept and nothing is repeated |
| `Views.MatchesList` | connections/views.py:208-236 | the matches page holds exactly the active matches of the user whose partner has a profile, each with that profile, newest first, and lists no match more often than the table holds it |
| `Views.KeepUsers` | connections/views.py:269-271 | the filter keeps exactly the profiles whose user is selected |
| `Views.LikedProfiles` | connections/views.py:262-271 | the liked page holds exactly the profiles whose user has a `like` (not a pass) from the requester, newest first |
| `ConnectionProperties.LikeKeepsValid` | connections/views.py:57-108 | liking keeps one profile per user, no self-likes, canonical unique matches, and all matches active |
| `ConnectionProperties.PassKeepsValid` | connections/views.py:133-176 | passing keeps the database's integrity and leaves every match, and its `is_active` flag, as it was |
| `ConnectionProperties.LikeIdempotent` | connections/views.py:79-87 | liking the same profile twice leaves the database as liking it once |
| `ConnectionProperties.PassIdempotent` | connections/views.py:155-160 | passing the same profile twice leaves the database as passing once |
| `ConnectionProperties.LikeBackMakesMatch` | connections/tests.py:254-276 | a first like towards someone who already likes the requester reports `is_match`, and the pair is stored once, in id order |
| `ConnectionProperties.FirstLikeStep` | connections/signals.py:16-23 | a first like when neither user has a row stores only that like |
| `ConnectionProperties.SecondLikeStep` | connections/signals.py:16-35 | a first like answering an existing like stores the like and appends one active match in id order |
| `ConnectionProperties.MutualLikeOrderIndependent` | connections/signals.py:6-35 | two users liking each other from a clean slate end in the same database, with one active match, whichever likes first |
| `ConnectionProperties.FlipToLikeLeavesMutualLikesUnmatched` | connections/views.py:88-91 | after a pass flipped to a like, both users like each other but no match exists and `is_match` is false |
| `ConnectionProperties.FlipToLikeMatchesWhenCorrected` | connections/views.py:88-91 | the corrected like creates the match for the same request |
| `ConnectionProperties.CorrectedLikeBackMakesMatch` | connections/signals.py:12-35 | with the correction, any request that turns the row into a like while the reverse like exists reports `is_match` and keeps the database valid |

## Left out

- Login, the "must have a profile" redirects of the list pages, JSON bodies, HTTP status codes and the `IntegrityError`/`Exception` handlers of the like and pass views. These are presentation. The model keeps only the success answer and the three view errors (no profile, unknown profile, own profile).
- Pagination (`paginate_by = 3`). It only cuts the ordered lists into pages.
- The race between two concurrent likes. Requests are sequential here. `unique_together` is the map key for likes and the `CanonicalMatches` invariant for matches. get-or-create is a lookup followed by an insert that fails on a collision, as Django's does when its retry finds nothing.
- Actual randomness. `order_by('?')` sorts on a caller-supplied per-row key, and the only promise stated for it is that it permutes the filtered profiles.
- Filtering the feed by preferences, and `max_distance`. The source implements neither. `max_distance` is carried and validated as a non-negative optional number.
- Wall-clock timestamps (`createdAt`, `created_at`). They are abstract integers, and only their order matters. A like's own `created_at` is never read by the core, so like rows carry only their action.
- Cloudinary storage. `photo` is the stored reference, empty when there is none.
- The branch of `construct_instance` that keeps a model default for a field missing from the submitted data. The two ages and `preferred_genders` (default `'M,F,O'`) have defaults. A missing age is already a form error, and the checkbox widget never reports its field as omitted from the data, so the branch is never taken for the selection either and decides nothing here.
- `PreferenceForm.FieldErrors`, `PreferenceForm.ValidateAs`, `PreferenceForm.Validate` and `PreferenceForm.ValidateCorrected`: the upper end of the integer range that the database backend adds to the model validators of `max_distance` is not modelled, so a distance beyond it is accepted here. The bound depends on the database engine, and the project settings are not part of this model. For the ages the same bound only adds a second error to an age already above 99.
- The texts of the error messages. Errors are identified by kind.
- Uniqueness checks (the one-to-one `user` column of `Preference`), in `full_clean` and in the form's `validate_unique`. User identity is outside this model.
- `Services.ArrangeFeed`: for equal `createdAt` values, the model fixes one stable order, while the database may return ties in any order. Only "newest first" is promised.
- Profile CRUD views, URL routing, admin registration, app wiring and the page script. These are framework plumbing with no logic of the core.

## Findings

| source | as written | input that shows it | evidently intended | confidence | as-written member | corrected member |
|---|---|---|---|---|---|---|
| connections/views.py:88-91 | Flipping a pass to a like saves the existing row. The hook at connections/signals.py:13 returns at once for a non-created row, so reciprocity is never checked on that path. | User 1 passes on user 2, user 2 likes user 1, then user 1 likes user 2. Both likes are stored, no match exists, and `is_match` is false. | Any transition into a like should run the reciprocity check, so mutual likes always yield a match. | high (derived by proof; not executed) | `ConnectionProperties.FlipToLikeLeavesMutualLikesUnmatched` | `ConnectionProperties.CorrectedLikeBackMakesMatch` |
| dating/forms.py:20-29 | The checkbox field hands a Python list to the model's `preferred_genders` column, a `CharField(max_length=10)` (dating/models.py:70-74). During `is_valid()`, `ModelForm` assigns that list to the instance, and the column validates `str(list)`, which takes five characters per code. `save` joins the codes with commas only afterwards. | Ages 20 and 30 with all three boxes checked: the column sees `['M', 'F', 'O']`, 15 characters, so `is_valid()` is false. Every selection of three or more codes is refused. | Validation should check the string that is stored, here `M,F,O` (the column's own default), so every checkbox selection is accepted. | high; rests on Django's `construct_instance` and `CharField.to_python`, which are not part of this model (derived by proof; not executed) | `PreferenceForm.AllThreeGendersRefused` | `PreferenceForm.CheckboxSelectionsAcceptedWhenCorrected` |

=== FILE: connection_models.dfy ===
/**
 * The connection records (connections/models.py): a `Like` is a directed like or
 * pass from one user to another, unique per ordered pair; a `Match` is a stored
 * pair of users kept in id order, unique per pair. `Db` is the part of the
 * database the connection code reads and writes.
 */
module ConnectionModels {

  import opened Results
  import Profiles

  type UserId = Profiles.UserId

  /** `Like.action`: `'like'` or `'dislike'` (a pass). */
  datatype Action = Liked | Disliked

  /** The stored code of an action. */
  function ActionCode(a: Action): string
  {
    match a
    case Liked => "like"
    case Disliked => "dislike"
  }

  /** Reads a stored action code back; anything outside `ACTION_CHOICES` is not an action. */
  function ParseAction(code: string): (r: Option<Action>)
    ensures r.Some? ==> ActionCode(r.value) == code
  {
    if code == "like" then Some(Liked)
    else if code == "dislike" then Some(Disliked)
    else None
  }

  /** Every action is stored as a choice code that reads back as itself. */
  lemma ActionCodeRoundTrip(a: Action)
    ensures ParseAction(ActionCode(a)) == Some(a)
    ensures |ActionCode(a)| <= 10
  {
  }

  /**
   * The `Like` table: the action stored for each `(from_user, to_user)` pair. A map
   * holds at most one entry per key, which is the `unique_together` constraint.
   */
  type LikeTable = map<(UserId, UserId), Action>

  /** Why a `Like` could not be saved. */
  datatype LikeError =
    | SelfLike        // `Like.save` raises for `from_user == to_user`
    | DuplicateLike   // an insert hit `unique_together`

  /** A saved `Like`: the new table and whether the row was inserted (`created`). */
  datatype SavedLike = SavedLike(likes: LikeTable, created: bool)

  /**
   * `Like.save`: refuses a self-like; otherwise an insert (`adding`) fails on an
   * existing pair, and an update overwrites the pair's action.
   */
  function SaveLike(likes: LikeTable, from: UserId, to: UserId, action: Action, adding: bool)
    : (r: Result<SavedLike, LikeError>)
    ensures from == to <==> r == Err(SelfLike)
    ensures r == Err(DuplicateLike) <==> from != to && adding && (from, to) in likes
    ensures r.Ok? ==> r.value.created == adding
    ensures r.Ok? ==> (from, to) in r.value.likes && r.value.likes[(from, to)] == action
    ensures r.Ok? ==> forall k | k in likes && k != (from, to) :: k in r.value.likes && r.value.likes[k] == likes[k]
    ensures r.Ok? ==> r.value.likes.Keys == likes.Keys + {(from, to)}
  {
    if from == to then Err(SelfLike)
    else if adding && (from, to) in likes then Err(DuplicateLike)
    else Ok(SavedLike(likes[(from, to) := action], adding))
  }

  /** No user has a `Like` row about themselves. */
  predicate NoSelfLikes(likes: LikeTable)
  {
    forall k | k in likes :: k.0 != k.1
  }

  /** A successful save keeps the table free of self-likes. */
  lemma SaveLikeNoSelfLikes(likes: LikeTable, from: UserId, to: UserId, action: Action, adding: bool)
    requires NoSelfLikes(likes)
    requires SaveLike(likes, from, to, action, adding).Ok?
    ensures NoSelfLikes(SaveLike(likes, from, to, action, adding).value.likes)
  {
  }

  /** One `Match` row; `isActive` defaults to true. */
  datatype Match = Match(user1: UserId, user2: UserId, createdAt: int, isActive: bool)

  /**
   * `Match.save`: when both ids are set (non-zero) and out of order, swaps them, so
   * the stored pair is in id order.
   */
  function SaveMatch(m: Match): (r: Match)
    ensures multiset{r.user1, r.user2} == multiset{m.user1, m.user2}
    ensures m.user1 != 0 && m.user2 != 0 ==> r.user1 <= r.user2
    ensures r.createdAt == m.createdAt && r.isActive == m.isActive
  {
    if m.user1 != 0 && m.user2 != 0 && m.user1 > m.user2 then
      m.(user1 := m.user2, user2 := m.user1)
    else m
  }

  /** Saving `Match(a, b)` or `Match(b, a)` stores the same row. */
  lemma SaveMatchSymmetric(a: UserId, b: UserId, createdAt: int, isActive: bool)
    requires a != 0 && b != 0
    ensures SaveMatch(Match(a, b, createdAt, isActive)) == SaveMatch(Match(b, a, createdAt, isActive))
  {
  }

  /** `Match.get_other_user`: `user2` for `user1`, and `user1` for anyone else. */
  function OtherUser(m: Match, user: UserId): (r: UserId)
    ensures r == m.user1 || r == m.user2
    ensures user == m.user1 ==> r == m.user2
    ensures user != m.user1 ==> r == m.user1
  {
    if user == m.user1 then m.user2 else m.user1
  }

  /**
   * For a member of a match between two different users, the other user is the
   * other member, and asking again from that side gives the member back.
   */
  lemma OtherUserOfMember(m: Match, user: UserId)
    requires m.user1 != m.user2
    requires user == m.user1 || user == m.user2
    ensures OtherUser(m, user) != user
    ensures multiset{user, OtherUser(m, user)} == multiset{m.user1, m.user2}
    ensures OtherUser(m, OtherUser(m, user)) == user
  {
  }

  /** The `Match` table, in insertion order. */
  type MatchTable = seq<Match>

  /** The table has a row storing exactly `(u1, u2)`. */
  predicate HasMatchRow(ms: MatchTable, u1: UserId, u2: UserId)
  {
    exists i | 0 <= i < |ms| :: ms[i].user1 == u1 && ms[i].user2 == u2
  }

  /** Every row is in strict id order and no pair is stored twice. */
  ghost predicate CanonicalMatches(ms: MatchTable)
  {
    && (forall i | 0 <= i < |ms| :: ms[i].user1 < ms[i].user2)
    && (forall i, j | 0 <= i < j < |ms| ::
          ms[i].user1 != ms[j].user1 || ms[i].user2 != ms[j].user2)
  }

  /** No stored match has been deactivated. */
  predicate AllActive(ms: MatchTable)
  {
    forall i | 0 <= i < |ms| :: ms[i].isActive
  }

  /** Why a `Match` could not be stored. */
  datatype MatchError = DuplicateMatch   // the insert hit `unique_together` and the retry found nothing

  /**
   * `Match.objects.get_or_create(user1=u1, user2=u2, defaults={'is_active': True})`:
   * returns the table unchanged when the row exists; otherwise saves a new active
   * match made at `now`. The save may swap the ids, and an insert that collides
   * with a stored row fails when the retried lookup still finds no `(u1, u2)` row.
   */
  function GetOrCreateMatch(ms: MatchTable, u1: UserId, u2: UserId, now: int)
    : (r: Result<MatchTable, MatchError>)
    ensures HasMatchRow(ms, u1, u2) ==> r == Ok(ms)
    ensures u1 < u2 ==> r.Ok? && HasMatchRow(r.value, u1, u2)
    ensures r.Ok? ==> ms <= r.value && |r.value| <= |ms| + 1
    ensures r.Ok? && |r.value| == |ms| + 1 ==> r.value[|ms|].isActive && r.value[|ms|].createdAt == now
    ensures r.Ok? && u1 < u2 && CanonicalMatches(ms) ==> CanonicalMatches(r.value)
  {
    if HasMatchRow(ms, u1, u2) then Ok(ms)
    else
      var m := SaveMatch(Match(u1, u2, now, true));
      if HasMatchRow(ms, m.user1, m.user2) then Err(DuplicateMatch)
      else
        var ms' := ms + [m];
        assert ms'[|ms|].user1 == m.user1 && ms'[|ms|].user2 == m.user2;
        Ok(ms')
  }

  /** `get_or_create` is idempotent: a second call finds the row the first one made. */
  lemma GetOrCreateIdempotent(ms: MatchTable, u1: UserId, u2: UserId, now: int, later: int)
    requires u1 < u2
    ensures GetOrCreateMatch(GetOrCreateMatch(ms, u1, u2, now).value, u1, u2, later)
         == GetOrCreateMatch(ms, u1, u2, now)
  {
  }

  /** The whole connection-relevant database: the profile directory, likes and matches. */
  datatype Db = Db(profiles: seq<Profiles.Profile>, likes: LikeTable, matches: MatchTable)

  /** The integrity the database keeps. */
  ghost predicate Valid(db: Db)
  {
    && Profiles.UniqueProfiles(db.profiles)
    && NoSelfLikes(db.likes)
    && CanonicalMatches(db.matches)
  }

  /** The users `user` has given `action` to (`Like.objects.filter(from_user=user, action=...)`). */
  function Targets(likes: LikeTable, user: UserId, action: Action): (ts: set<UserId>)
    ensures forall t :: t in ts <==> (user, t) in likes && likes[(user, t)] == action
  {
    set k | k in likes && k.0 == user && likes[k] == action :: k.1
  }
}

=== FILE: connection_properties.dfy ===
/**
 * Properties of the like and pass transitions taken together: the database
 * integrity they keep, their idempotence, when a match appears, and the
 * dislike-to-like path that never creates one.
 */
module ConnectionProperties {

  import opened Results
  import opened ConnectionModels
  import Profiles
  import Signals
  import Views

  /** Liking keeps the database's integrity and keeps every match active. */
  lemma LikeKeepsValid(db: Db, requester: UserId, profileId: nat, now: int)
    requires Valid(db)
    ensures Valid(Views.LikeProfile(db, requester, profileId, now).db)
    ensures AllActive(db.matches) ==> AllActive(Views.LikeProfile(db, requester, profileId, now).db.matches)
  {
    var r := Views.LikeProfile(db, requester, profileId, now);
    if r.answer.Ok? {
      var to := Views.Target(db, requester, profileId).value.user;
      assert r.db.likes == db.likes[(requester, to) := Liked];
    }
  }

  /** Passing keeps the database's integrity and leaves every match as it was. */
  lemma PassKeepsValid(db: Db, requester: UserId, profileId: nat, now: int)
    requires Valid(db)
    ensures Valid(Views.PassProfile(db, requester, profileId, now).db)
    ensures Views.PassProfile(db, requester, profileId, now).db.matches == db.matches
  {
    var r := Views.PassProfile(db, requester, profileId, now);
    if r.answer.Ok? {
      var to := Views.Target(db, requester, profileId).value.user;
      assert r.db.likes == db.likes[(requester, to) := Disliked];
    }
  }

  /** Liking the same profile twice leaves the database as liking it once. */
  lemma LikeIdempotent(db: Db, requester: UserId, profileId: nat, now: int, later: int)
    ensures var once := Views.LikeProfile(db, requester, profileId, now).db;
      Views.LikeProfile(once, requester, profileId, later).db == once
  {
    var r := Views.LikeProfile(db, requester, profileId, now);
    if r.answer.Ok? {
      var to := Views.Target(db, requester, profileId).value.user;
      assert Views.Target(r.db, requester, profileId) == Views.Target(db, requester, profileId);
      assert (requester, to) in r.db.likes && r.db.likes[(requester, to)] == Liked;
    }
  }

  /** Passing on the same profile twice leaves the database as passing once. */
  lemma PassIdempotent(db: Db, requester: UserId, profileId: nat, now: int, later: int)
    ensures var once := Views.PassProfile(db, requester, profileId, now).db;
      Views.PassProfile(once, requester, profileId, later).db == once
  {
    var r := Views.PassProfile(db, requester, profileId, now);
    if r.answer.Ok? {
      var to := Views.Target(db, requester, profileId).value.user;
      assert Views.Target(r.db, requester, profileId) == Views.Target(db, requester, profileId);
      assert (requester, to) in r.db.likes && r.db.likes[(requester, to)] == Disliked;
    }
  }

  /**
   * A first like towards someone who already likes the requester answers
   * `is_match`, and the pair is stored once, in id order.
   */
  lemma LikeBackMakesMatch(db: Db, requester: UserId, profileId: nat, now: int)
    requires Valid(db) && AllActive(db.matches)
    requires Views.Target(db, requester, profileId).Ok?
    requires var to := Views.Target(db, requester, profileId).value.user;
      (requester, to) !in db.likes && Signals.LikesBack(db.likes, to, requester)
    ensures var r := Views.LikeProfile(db, requester, profileId, now);
      && r.answer.Ok? && r.answer.value.isMatch
      && CanonicalMatches(r.db.matches)
  {
    var to := Views.Target(db, requester, profileId).value.user;
    var r := Views.LikeProfile(db, requester, profileId, now);
    LikeKeepsValid(db, requester, profileId, now);
    var u1, u2 := Signals.Min(requester, to), Signals.Max(requester, to);
    assert HasMatchRow(r.db.matches, u1, u2);
    var i :| 0 <= i < |r.db.matches| && r.db.matches[i].user1 == u1 && r.db.matches[i].user2 == u2;
    assert r.db.matches[i].isActive;
  }

  /** A first like towards someone who has not liked back only stores the like. */
  lemma FirstLikeStep(db: Db, requester: UserId, target: Profiles.Profile, now: int)
    requires Profiles.UniqueProfiles(db.profiles)
    requires target in db.profiles && target.user != requester
    requires Profiles.ProfileOf(db.profiles, requester).Some?
    requires (requester, target.user) !in db.likes && (target.user, requester) !in db.likes
    ensures var r := Views.LikeProfile(db, requester, target.id, now);
      && r.answer.Ok?
      && r.db == db.(likes := db.likes[(requester, target.user) := Liked])
  {
    Profiles.ProfileByIdUnique(db.profiles, target);
  }

  /**
   * A first like towards someone who already likes the requester stores the like
   * and appends one active match, in id order, made now.
   */
  lemma SecondLikeStep(db: Db, requester: UserId, target: Profiles.Profile, now: int)
    requires Profiles.UniqueProfiles(db.profiles)
    requires target in db.profiles && target.user != requester
    requires Profiles.ProfileOf(db.profiles, requester).Some?
    requires (requester, target.user) !in db.likes && Signals.LikesBack(db.likes, target.user, requester)
    requires !HasMatchRow(db.matches, Signals.Min(requester, target.user), Signals.Max(requester, target.user))
    ensures var r := Views.LikeProfile(db, requester, target.id, now);
      var m := Match(Signals.Min(requester, target.user), Signals.Max(requester, target.user), now, true);
      && r.answer.Ok? && r.answer.value.isMatch
      && r.db == db.(likes := db.likes[(requester, target.user) := Liked], matches := db.matches + [m])
  {
    Profiles.ProfileByIdUnique(db.profiles, target);
    var r := Views.LikeProfile(db, requester, target.id, now);
    var m := Match(Signals.Min(requester, target.user), Signals.Max(requester, target.user), now, true);
    assert r.db.matches == db.matches + [m];
    assert r.db.matches[|db.matches|] == m;
  }

  /**
   * Two users liking each other from a clean slate end in the same database
   * whichever of them likes first: both likes stored and one active match.
   */
  lemma MutualLikeOrderIndependent(db: Db, pa: Profiles.Profile, pb: Profiles.Profile, first: int, second: int)
    requires Valid(db)
    requires pa in db.profiles && pb in db.profiles && pa.user != pb.user
    requires (pa.user, pb.user) !in db.likes && (pb.user, pa.user) !in db.likes
    requires !HasMatchRow(db.matches, Signals.Min(pa.user, pb.user), Signals.Max(pa.user, pb.user))
    ensures var aFirst := Views.LikeProfile(Views.LikeProfile(db, pa.user, pb.id, first).db, pb.user, pa.id, second);
      var bFirst := Views.LikeProfile(Views.LikeProfile(db, pb.user, pa.id, first).db, pa.user, pb.id, second);
      && aFirst.db == bFirst.db
      && aFirst.answer.Ok? && aFirst.answer.value.isMatch
      && bFirst.answer.Ok? && bFirst.answer.value.isMatch
      && aFirst.db.matches == db.matches + [Match(Signals.Min(pa.user, pb.user), Signals.Max(pa.user, pb.user), second, true)]
  {
    var a, b := pa.user, pb.user;
    Profiles.ProfileOfUnique(db.profiles, pa);
    Profiles.ProfileOfUnique(db.profiles, pb);
    assert Signals.Min(b, a) == Signals.Min(a, b) && Signals.Max(b, a) == Signals.Max(a, b);

    var m := Match(Signals.Min(a, b), Signals.Max(a, b), second, true);
    var both := db.likes[(a, b) := Liked][(b, a) := Liked];
    assert both == db.likes[(b, a) := Liked][(a, b) := Liked];

    FirstLikeStep(db, a, pb, first);
    var a1 := db.(likes := db.likes[(a, b) := Liked]);
    assert Views.LikeProfile(db, a, pb.id, first).db == a1;
    SecondLikeStep(a1, b, pa, second);
    var aFirst := Views.LikeProfile(a1, b, pa.id, second);
    assert aFirst.db == db.(likes := both, matches := db.matches + [m]);

    FirstLikeStep(db, b, pa, first);
    var b1 := db.(likes := db.likes[(b, a) := Liked]);
    assert Views.LikeProfile(db, b, pa.id, first).db == b1;
    SecondLikeStep(b1, a, pb, second);
    var bFirst := Views.LikeProfile(b1, a, pb.id, second);
    assert bFirst.db == db.(likes := both, matches := db.matches + [m]);
  }

  /** A small directory of two users, 1 and 2, each with a profile whose key is the user id. */
  function TwoUsers(): seq<Profiles.Profile>
  {
    [Profiles.Profile(1, 1, 30, "F", "", "", "", "", 1, false),
     Profiles.Profile(2, 2, 31, "M", "", "", "", "", 2, false)]
  }

  /**
   * As written, liking after a pass never creates the match: user 1 passed on
   * user 2, user 2 liked user 1, and user 1 now likes user 2. Both likes are stored,
   * yet no match exists and the answer says so.
   */
  lemma FlipToLikeLeavesMutualLikesUnmatched()
    ensures var db := Db(TwoUsers(), map[(1, 2) := Disliked, (2, 1) := Liked], []);
      var r := Views.LikeProfile(db, 1, 2, 10);
      && r.answer == Ok(Views.LikeReply(false, false))
      && Signals.LikesBack(r.db.likes, 1, 2) && Signals.LikesBack(r.db.likes, 2, 1)
      && r.db.matches == []
  {
    var db := Db(TwoUsers(), map[(1, 2) := Disliked, (2, 1) := Liked], []);
    assert Profiles.ProfileOf(db.profiles, 1).Some?;
    assert Profiles.ProfileById(db.profiles, 2) == Some(TwoUsers()[1]);
  }

  /** With the flip treated as a new like, the same request creates the match. */
  lemma FlipToLikeMatchesWhenCorrected()
    ensures var db := Db(TwoUsers(), map[(1, 2) := Disliked, (2, 1) := Liked], []);
      var r := Views.LikeProfileCorrected(db, 1, 2, 10);
      && r.answer == Ok(Views.LikeReply(false, true))
      && r.db.matches == [Match(1, 2, 10, true)]
  {
    var db := Db(TwoUsers(), map[(1, 2) := Disliked, (2, 1) := Liked], []);
    assert Profiles.ProfileOf(db.profiles, 1).Some?;
    assert Profiles.ProfileById(db.profiles, 2) == Some(TwoUsers()[1]);
    var r := Views.LikeProfileCorrected(db, 1, 2, 10);
    assert r.db.matches[0] == Match(1, 2, 10, true);
  }

  /**
   * The intended rule, which the corrected like satisfies: whenever a request turns
   * the requester's row into a like and the target already likes the requester back,
   * the match is there and `is_match` is reported.
   */
  lemma CorrectedLikeBackMakesMatch(db: Db, requester: UserId, profileId: nat, now: int)
    requires Valid(db) && AllActive(db.matches)
    requires Views.Target(db, requester, profileId).Ok?
    requires var to := Views.Target(db, requester, profileId).value.user;
      !((requester, to) in db.likes && db.likes[(requester, to)] == Liked) &&
      Signals.LikesBack(db.likes, to, requester)
    ensures var r := Views.LikeProfileCorrected(db, requester, profileId, now);
      && r.answer.Ok? && r.answer.value.isMatch
      && Valid(r.db)
  {
    var to := Views.Target(db, requester, profileId).value.user;
    var r := Views.LikeProfileCorrected(db, requester, profileId, now);
    LikeKeepsValid(db, requester, profileId, now);
    var w := Views.LikeProfile(db, requester, profileId, now);
    assert NoSelfLikes(r.db.likes) by {
      assert r.db.likes == db.likes[(requester, to) := Liked];
    }
    var u1, u2 := Signals.Min(requester, to), Signals.Max(requester, to);
    assert HasMatchRow(r.db.matches, u1, u2);
    var i :| 0 <= i < |r.db.matches| && r.db.matches[i].user1 == u1 && r.db.matches[i].user2 == u2;
    assert AllActive(r.db.matches);
  }
}

=== FILE: ordering.dfy ===
/**
 * Ordering of query results.
 *
 * Every list query of the app ends in an `order_by`: `-createdAt` / `-created_at`
 * (newest first) or `?` (random). Both are modelled as a stable sort on an integer
 * key: newest first is the key `-createdAt`, and a random order is the key the
 * database draws for each row.
 */
module Ordering {

  /** `xs` is in ascending order of `key`. */
  ghost predicate SortedBy<T>(xs: seq<T>, key: T -> int)
  {
    forall i, j | 0 <= i < j < |xs| :: key(xs[i]) <= key(xs[j])
  }

  /** Inserts `x` into `xs` before the first element whose key is not smaller. */
  function Insert<T>(x: T, xs: seq<T>, key: T -> int): (r: seq<T>)
    ensures multiset(r) == multiset(xs) + multiset{x}
    ensures |r| == |xs| + 1
    ensures SortedBy(xs, key) ==> SortedBy(r, key)
  {
    if |xs| == 0 then [x]
    else if key(x) <= key(xs[0]) then [x] + xs
    else
      var tail := Insert(x, xs[1..], key);
      assert xs == [xs[0]] + xs[1..];
      assert SortedBy(xs, key) ==> SortedBy([xs[0]] + tail, key) by {
        if SortedBy(xs, key) {
          HeadBelowAll(xs[0], x, xs[1..], tail, key);
        }
      }
      [xs[0]] + tail
  }

  /**
   * Prepending `h` to a sorted `tail` built from `x` and `rest` keeps it sorted when
   * `h` is not above `x` nor any element of `rest`.
   */
  lemma HeadBelowAll<T>(h: T, x: T, rest: seq<T>, tail: seq<T>, key: T -> int)
    requires key(h) <= key(x)
    requires forall k | 0 <= k < |rest| :: key(h) <= key(rest[k])
    requires multiset(tail) == multiset(rest) + multiset{x}
    requires SortedBy(tail, key)
    ensures SortedBy([h] + tail, key)
  {
    forall k | 0 <= k < |tail|
      ensures key(h) <= key(tail[k])
    {
      assert tail[k] in multiset(tail);
      if tail[k] != x {
        assert tail[k] in multiset(rest);
        var m :| 0 <= m < |rest| && rest[m] == tail[k];
      }
    }
  }

  /** A stable sort of `xs` into ascending order of `key`. */
  function SortBy<T>(xs: seq<T>, key: T -> int): (r: seq<T>)
    ensures multiset(r) == multiset(xs)
    ensures |r| == |xs|
    ensures SortedBy(r, key)
  {
    if |xs| == 0 then []
    else
      assert xs == [xs[0]] + xs[1..];
      Insert(xs[0], SortBy(xs[1..], key), key)
  }
}

=== FILE: preference_form.dfy ===
/**
 * The preference form (`PreferenceForm` in dating/forms.py): the gender checkboxes,
 * the form-level checks of `clean`, the comma-join `save` performs and the list
 * `__init__` puts back into the checkboxes.
 */
module PreferenceForm {

  import opened Results
  import Text
  import Profiles
  import Preferences

  /** The selection stored when none is given. */
  const AllGenders: string := "M,F,O"

  /**
   * One submitted number field: absent or empty, text that is not a whole number,
   * or a whole number.
   */
  datatype NumberInput = Missing | NotANumber | Number(value: int)

  /** The submitted values; `genders` are the checked boxes in submission order. */
  datatype FormInput = FormInput(
    minAge: NumberInput,
    maxAge: NumberInput,
    genders: seq<string>,
    maxDistance: NumberInput)

  /** `cleaned_data`: a field whose own validation failed is missing (`None`). */
  datatype CleanedData = CleanedData(
    minAge: Option<nat>,
    maxAge: Option<nat>,
    genders: Option<seq<string>>,
    maxDistance: Option<nat>)

  /** The data of a form that validated. */
  datatype ValidForm = ValidForm(
    minAge: nat,
    maxAge: nat,
    genders: seq<string>,
    maxDistance: Option<nat>)

  /**
   * The errors the form can report: those of its own fields and of its `clean`,
   * and those the model's `full_clean` reports on the instance the form builds.
   */
  datatype FormError =
    | MinAgeInvalid | MaxAgeInvalid
    | GendersRequired | GenderNotAChoice
    | MaxDistanceInvalid
    | AgeBandEmpty | NoGenderSelected
    | ModelError(error: Preferences.PreferenceError)

  /**
   * A number field: the form field Django derives from a `PositiveIntegerField`, a
   * whole number that is not negative. The ages are required and the distance is
   * not (`FieldErrors`). The model's 18..99 age validators are not part of it; they
   * run on the instance (`PostClean`).
   */
  function CleanNumber(raw: NumberInput): (r: Option<nat>)
    ensures r.Some? <==> raw.Number? && raw.value >= 0
    ensures r.Some? ==> r.value == raw.value
  {
    match raw
    case Number(v) => if v >= 0 then Some(v) else None
    case _ => None
  }

  /** The checkbox field: required (`required=True`), every value one of the choices. */
  function CleanGenders(raw: seq<string>): (r: Option<seq<string>>)
    ensures r.Some? <==> |raw| > 0 && forall i | 0 <= i < |raw| :: raw[i] in Profiles.GenderCodes
    ensures r.Some? ==> r.value == raw
  {
    if |raw| == 0 then None
    else if forall i | 0 <= i < |raw| :: raw[i] in Profiles.GenderCodes then Some(raw)
    else None
  }

  /**
   * The distance field is optional: it accepts an empty value and a whole number
   * that is not negative, and rejects text that is not a number.
   */
  predicate DistanceAccepted(raw: NumberInput)
  {
    raw.Missing? || (raw.Number? && raw.value >= 0)
  }

  /** `cleaned_data` after every field has validated itself. */
  function Cleaned(input: FormInput): (c: CleanedData)
    ensures c.minAge.Some? <==> input.minAge.Number? && input.minAge.value >= 0
    ensures c.maxAge.Some? <==> input.maxAge.Number? && input.maxAge.value >= 0
    ensures c.genders.Some? ==> c.genders.value == input.genders && |input.genders| > 0
    ensures c.genders.None? ==> |input.genders| == 0 || exists i | 0 <= i < |input.genders| :: input.genders[i] !in Profiles.GenderCodes
    ensures c.minAge.Some? ==> c.minAge.value == input.minAge.value
    ensures c.maxAge.Some? ==> c.maxAge.value == input.maxAge.value
    ensures c.maxDistance.Some? <==> input.maxDistance.Number? && input.maxDistance.value >= 0
    ensures c.maxDistance.Some? ==> c.maxDistance.value == input.maxDistance.value
  {
    CleanedData(CleanNumber(input.minAge), CleanNumber(input.maxAge),
                CleanGenders(input.genders), CleanNumber(input.maxDistance))
  }

  /** The errors of the form's individual fields. */
  function FieldErrors(input: FormInput): (errs: set<FormError>)
    ensures errs == {} <==>
      && input.minAge.Number? && input.minAge.value >= 0
      && input.maxAge.Number? && input.maxAge.value >= 0
      && |input.genders| > 0
      && (forall i | 0 <= i < |input.genders| :: input.genders[i] in Profiles.GenderCodes)
      && DistanceAccepted(input.maxDistance)
    ensures GendersRequired in errs <==> |input.genders| == 0
    ensures forall e | e in errs :: !e.ModelError? && e != AgeBandEmpty && e != NoGenderSelected
  {
    (if CleanNumber(input.minAge).None? then {MinAgeInvalid} else {}) +
    (if CleanNumber(input.maxAge).None? then {MaxAgeInvalid} else {}) +
    (if |input.genders| == 0 then {GendersRequired}
     else if CleanGenders(input.genders).None? then {GenderNotAChoice}
     else {}) +
    (if !DistanceAccepted(input.maxDistance) then {MaxDistanceInvalid} else {})
  }

  /**
   * `PreferenceForm.clean`: the age band is checked first, and only when both ages
   * are present and non-zero; then a gender must be selected. It raises at the first
   * problem, so it reports at most one error.
   */
  function Clean(c: CleanedData): (r: Option<FormError>)
    ensures r == Some(AgeBandEmpty) <==>
      c.minAge.Some? && c.maxAge.Some? && c.minAge.value != 0 && c.maxAge.value != 0 &&
      c.minAge.value >= c.maxAge.value
    ensures r == Some(NoGenderSelected) <==>
      r != Some(AgeBandEmpty) && (c.genders.None? || |c.genders.value| == 0)
    ensures r.Some? ==> r.value in {AgeBandEmpty, NoGenderSelected}
  {
    if c.minAge.Some? && c.maxAge.Some? && c.minAge.value != 0 && c.maxAge.value != 0 &&
       c.minAge.value >= c.maxAge.value then
      Some(AgeBandEmpty)
    else if c.genders.None? || |c.genders.value| == 0 then
      Some(NoGenderSelected)
    else None
  }

  /** How the checked codes reach the `preferred_genders` column while the form validates. */
  datatype Rendering =
    | ListRepr     // the list itself is assigned, and the column's `to_python` turns it into `str(list)`
    | CommaJoined  // the comma-joined string that `save` stores

  /**
   * Python's `str(list)` of a list of one-letter codes, `['M', 'F']`. Only codes
   * that passed the checkbox field reach it, so no character needs escaping.
   */
  function Repr(gs: seq<string>): string
  {
    "[" + ReprItems(gs) + "]"
  }

  /** The items of `str(list)`: each code in single quotes, separated by `", "`. */
  function ReprItems(gs: seq<string>): string
  {
    if |gs| == 0 then ""
    else if |gs| == 1 then "'" + gs[0] + "'"
    else "'" + gs[0] + "', " + ReprItems(gs[1..])
  }

  /** The column value validation sees for the selection `gs`. */
  function Render(gs: seq<string>, how: Rendering): string
  {
    match how
    case ListRepr => Repr(gs)
    case CommaJoined => StoredGenders(gs)
  }

  /**
   * `construct_instance`: each field still in `cleaned_data` is copied into the
   * instance. A field whose own check failed is not there, and neither is `min_age`
   * after `clean` raised the age-band error on it.
   */
  function Constructed(instance: Preferences.Preference, input: FormInput, how: Rendering)
    : Preferences.Preference
  {
    var c := Cleaned(input);
    var bandError := Clean(c) == Some(AgeBandEmpty);
    instance.(
      minAge := if c.minAge.Some? && !bandError then c.minAge.value else instance.minAge,
      maxAge := if c.maxAge.Some? then c.maxAge.value else instance.maxAge,
      preferredGenders := if c.genders.Some? then Render(c.genders.value, how) else instance.preferredGenders,
      maxDistance := if DistanceAccepted(input.maxDistance) then c.maxDistance else instance.maxDistance)
  }

  /** `_get_validation_exclusions`: the fields that already have an error on the form. */
  function Excluded(input: FormInput): set<Preferences.Field>
  {
    var c := Cleaned(input);
    (if c.minAge.None? || Clean(c) == Some(AgeBandEmpty) then {Preferences.MinAgeField} else {}) +
    (if c.maxAge.None? then {Preferences.MaxAgeField} else {}) +
    (if c.genders.None? then {Preferences.GendersField} else {}) +
    (if !DistanceAccepted(input.maxDistance) then {Preferences.DistanceField} else {})
  }

  /**
   * `ModelForm._post_clean`: the instance built from `cleaned_data` runs
   * `full_clean`, leaving out the fields that already have errors; the model's
   * `clean` runs regardless. Once the form's `clean` has refused the age band,
   * `min_age` is neither copied nor validated, so the stored minimum alone meets
   * the new maximum in the model's band check.
   */
  function PostClean(instance: Preferences.Preference, input: FormInput, how: Rendering)
    : (errs: set<Preferences.PreferenceError>)
    ensures FieldErrors(input) == {} && Clean(Cleaned(input)).None? ==>
      errs == Preferences.FullClean(instance.(
        minAge := input.minAge.value, maxAge := input.maxAge.value,
        preferredGenders := Render(input.genders, how),
        maxDistance := CleanNumber(input.maxDistance)))
    ensures Clean(Cleaned(input)) == Some(AgeBandEmpty) ==>
      && input.maxAge.Number?
      && (Preferences.AgeBandEmpty in errs <==> instance.minAge >= input.maxAge.value)
      && Preferences.MinAgeBelow !in errs && Preferences.MinAgeAbove !in errs
  {
    Preferences.FullCleanExcept(Constructed(instance, input, how), Excluded(input))
  }

  /**
   * `is_valid()` of a form bound to `input` for `instance`, with the selection
   * reaching the column as `how` says: the field errors, the form's `clean`, and
   * the model's `full_clean` on the built instance. All three run, whatever the
   * others found.
   */
  function ValidateAs(instance: Preferences.Preference, input: FormInput, how: Rendering)
    : (r: Result<ValidForm, set<FormError>>)
    ensures r.Ok? <==>
      && input.minAge.Number? && input.maxAge.Number?
      && Profiles.MinAge <= input.minAge.value < input.maxAge.value <= Profiles.MaxAge
      && |input.genders| > 0
      && (forall i | 0 <= i < |input.genders| :: input.genders[i] in Profiles.GenderCodes)
      && DistanceAccepted(input.maxDistance)
      && 0 < |Render(input.genders, how)| <= Preferences.GendersMaxLength
    ensures r.Ok? ==>
      r.value == ValidForm(input.minAge.value, input.maxAge.value, input.genders, CleanNumber(input.maxDistance))
    ensures r.Err? ==> r.error != {}
    ensures |input.genders| == 0 ==>
      r.Err? && GendersRequired in r.error &&
      (NoGenderSelected in r.error || AgeBandEmpty in r.error)
    ensures input.minAge.Number? && input.maxAge.Number? && input.minAge.value >= input.maxAge.value > 0
            ==> r.Err? && AgeBandEmpty in r.error
    ensures |input.genders| > 0 && (forall i | 0 <= i < |input.genders| :: input.genders[i] in Profiles.GenderCodes)
            && |Render(input.genders, how)| > Preferences.GendersMaxLength
            ==> r.Err? && ModelError(Preferences.GendersTooLong) in r.error
  {
    var c := Cleaned(input);
    var formClean := match Clean(c) case Some(e) => {e} case None => {};
    var post := PostClean(instance, input, how);
    var errs := FieldErrors(input) + formClean + (set e | e in post :: ModelError(e));
    assert forall e | e in post :: ModelError(e) in errs;
    assert |input.genders| > 0 && (forall i | 0 <= i < |input.genders| :: input.genders[i] in Profiles.GenderCodes)
           && |Render(input.genders, how)| > Preferences.GendersMaxLength
           ==> ModelError(Preferences.GendersTooLong) in errs by {
      if |input.genders| > 0 && (forall i | 0 <= i < |input.genders| :: input.genders[i] in Profiles.GenderCodes)
         && |Render(input.genders, how)| > Preferences.GendersMaxLength {
        TooLongSelectionReported(instance, input, how);
      }
    }
    if errs == {} then
      Ok(ValidForm(c.minAge.value, c.maxAge.value, c.genders.value, c.maxDistance))
    else Err(errs)
  }

  /**
   * A selection the checkbox field accepts reaches the column, so one whose
   * rendering is too long draws the column's length error.
   */
  lemma TooLongSelectionReported(instance: Preferences.Preference, input: FormInput, how: Rendering)
    requires |input.genders| > 0
    requires forall i | 0 <= i < |input.genders| :: input.genders[i] in Profiles.GenderCodes
    requires |Render(input.genders, how)| > Preferences.GendersMaxLength
    ensures Preferences.GendersTooLong in PostClean(instance, input, how)
  {
    var built := Constructed(instance, input, how);
    assert Cleaned(input).genders == Some(input.genders);
    assert built.preferredGenders == Render(input.genders, how);
    assert Preferences.GendersField !in Excluded(input);
    assert Preferences.GendersTooLong in Preferences.ErrorsOf(built, Preferences.GendersField);
  }

  /**
   * `is_valid()` as written: the selected list is assigned to the `CharField`, so
   * the model checks `str(list)` (five characters per code) against `max_length=10`
   * and no selection of more than two codes validates.
   */
  function Validate(instance: Preferences.Preference, input: FormInput): (r: Result<ValidForm, set<FormError>>)
    ensures r.Ok? <==>
      && input.minAge.Number? && input.maxAge.Number?
      && Profiles.MinAge <= input.minAge.value < input.maxAge.value <= Profiles.MaxAge
      && 0 < |input.genders| <= 2
      && (forall i | 0 <= i < |input.genders| :: input.genders[i] in Profiles.GenderCodes)
      && DistanceAccepted(input.maxDistance)
    ensures r.Ok? ==>
      r.value == ValidForm(input.minAge.value, input.maxAge.value, input.genders, CleanNumber(input.maxDistance))
    ensures r.Err? ==> r.error != {}
    ensures |input.genders| == 0 ==>
      r.Err? && GendersRequired in r.error &&
      (NoGenderSelected in r.error || AgeBandEmpty in r.error)
    ensures input.minAge.Number? && input.maxAge.Number? && input.minAge.value >= input.maxAge.value > 0
            ==> r.Err? && AgeBandEmpty in r.error
    ensures |input.genders| >= 3 && (forall i | 0 <= i < |input.genders| :: input.genders[i] in Profiles.GenderCodes)
            ==> r.Err? && ModelError(Preferences.GendersTooLong) in r.error
  {
    var codes := |input.genders| > 0 && forall i | 0 <= i < |input.genders| :: input.genders[i] in Profiles.GenderCodes;
    assert codes ==> |Repr(input.genders)| == 5 * |input.genders| by {
      if codes { ReprOfCodesLength(input.genders); }
    }
    ValidateAs(instance, input, ListRepr)
  }

  /**
   * `is_valid()` as evidently intended: validation sees the comma-joined string
   * that `save` stores, so any selection whose join fits the column validates.
   */
  function ValidateCorrected(instance: Preferences.Preference, input: FormInput)
    : (r: Result<ValidForm, set<FormError>>)
    ensures r.Ok? <==>
      && input.minAge.Number? && input.maxAge.Number?
      && Profiles.MinAge <= input.minAge.value < input.maxAge.value <= Profiles.MaxAge
      && |input.genders| > 0
      && (forall i | 0 <= i < |input.genders| :: input.genders[i] in Profiles.GenderCodes)
      && DistanceAccepted(input.maxDistance)
      && |Text.Join(input.genders, Preferences.GenderSeparator)| <= Preferences.GendersMaxLength
    ensures r.Ok? ==>
      r.value == ValidForm(input.minAge.value, input.maxAge.value, input.genders, CleanNumber(input.maxDistance))
    ensures r.Ok? ==> Save(instance, r.value).Ok?
    ensures r.Err? ==> r.error != {}
  {
    var codes := |input.genders| > 0 && forall i | 0 <= i < |input.genders| :: input.genders[i] in Profiles.GenderCodes;
    assert codes ==> |Text.Join(input.genders, Preferences.GenderSeparator)| == 2 * |input.genders| - 1 by {
      if codes { JoinOfCodesLength(input.genders); }
    }
    ValidateAs(instance, input, CommaJoined)
  }

  /** `str(list)` of `n` codes has `5n` characters: brackets, quotes and `", "` between items. */
  lemma ReprOfCodesLength(gs: seq<string>)
    requires |gs| > 0
    requires forall i | 0 <= i < |gs| :: gs[i] in Profiles.GenderCodes
    ensures |Repr(gs)| == 5 * |gs|
  {
    ReprItemsLength(gs);
  }

  /** The items of `str(list)` of `n` codes take `5n - 2` characters. */
  lemma {:induction false} ReprItemsLength(gs: seq<string>)
    requires |gs| > 0
    requires forall i | 0 <= i < |gs| :: gs[i] in Profiles.GenderCodes
    ensures |ReprItems(gs)| == 5 * |gs| - 2
  {
    assert |gs[0]| == 1 by {
      assert gs[0] == "M" || gs[0] == "F" || gs[0] == "O";
    }
    if |gs| > 1 {
      ReprItemsLength(gs[1..]);
    }
  }

  /** The stored form of a selection: the codes joined by commas, or every gender when empty. */
  function StoredGenders(genders: seq<string>): (s: string)
    ensures |genders| == 0 ==> s == AllGenders
    ensures |genders| > 0 ==> s == Text.Join(genders, Preferences.GenderSeparator)
  {
    if |genders| > 0 then Text.Join(genders, Preferences.GenderSeparator) else AllGenders
  }

  /**
   * `PreferenceForm.save`: copies the form into the row, stores the selection as a
   * comma-joined string, and saves the row through `full_clean`, which accepts it
   * exactly when the ages form a band in 18..99 and the stored string fits.
   */
  function Save(instance: Preferences.Preference, f: ValidForm)
    : (r: Result<Preferences.Preference, set<Preferences.PreferenceError>>)
    ensures r.Ok? <==>
      && Profiles.MinAge <= f.minAge < f.maxAge <= Profiles.MaxAge
      && 0 < |StoredGenders(f.genders)| <= Preferences.GendersMaxLength
    ensures r.Ok? ==> Preferences.Storable(r.value)
    ensures r.Ok? ==>
      r.value.minAge == f.minAge && r.value.maxAge == f.maxAge && r.value.maxDistance == f.maxDistance
    ensures r.Ok? && |f.genders| == 0 ==> r.value.preferredGenders == AllGenders
    ensures r.Ok? && |f.genders| > 0 ==>
      r.value.preferredGenders == Text.Join(f.genders, Preferences.GenderSeparator)
  {
    Preferences.Save(instance.(minAge := f.minAge, maxAge := f.maxAge,
                               preferredGenders := StoredGenders(f.genders),
                               maxDistance := f.maxDistance))
  }

  /**
   * `PreferenceForm.__init__`: for a row already in the database with a non-empty
   * gender string, the checkboxes start from the stored list.
   */
  function InitialGenders(instance: Preferences.Preference, persisted: bool): (r: Option<seq<string>>)
    ensures r.Some? <==> persisted && instance.preferredGenders != ""
    ensures r.Some? ==> r.value == Preferences.PreferredGendersList(instance)
  {
    if persisted && instance.preferredGenders != "" then
      Some(Preferences.PreferredGendersList(instance))
    else None
  }

  /** No code is selected twice. */
  predicate Distinct(gs: seq<string>)
  {
    forall i, j | 0 <= i < j < |gs| :: gs[i] != gs[j]
  }

  /**
   * A form that validates saves, and reopening the saved row pre-fills exactly
   * the submitted selection.
   */
  lemma SaveThenReopen(input: FormInput, instance: Preferences.Preference)
    requires Validate(instance, input).Ok?
    ensures Save(instance, Validate(instance, input).value).Ok?
    ensures InitialGenders(Save(instance, Validate(instance, input).value).value, true) == Some(input.genders)
  {
    var f := Validate(instance, input).value;
    JoinOfCodesLength(f.genders);
    var saved := Save(instance, f).value;
    Preferences.GendersListRoundTrip(f.genders, saved);
  }

  /**
   * With the corrected validation too, a form that validates saves, and reopening
   * the saved row pre-fills exactly the submitted selection.
   */
  lemma CorrectedSaveThenReopen(input: FormInput, instance: Preferences.Preference)
    requires ValidateCorrected(instance, input).Ok?
    ensures Save(instance, ValidateCorrected(instance, input).value).Ok?
    ensures InitialGenders(Save(instance, ValidateCorrected(instance, input).value).value, true)
            == Some(input.genders)
  {
    var f := ValidateCorrected(instance, input).value;
    var saved := Save(instance, f).value;
    Preferences.GendersListRoundTrip(f.genders, saved);
  }

  /**
   * As written, checking all three boxes with a sound age band is refused: the
   * model sees `"['M', 'F', 'O']"`, 15 characters, in a 10-character column.
   */
  lemma AllThreeGendersRefused(instance: Preferences.Preference)
    ensures var input := FormInput(Number(20), Number(30), ["M", "F", "O"], Missing);
      && Validate(instance, input).Err?
      && Validate(instance, input).error == {ModelError(Preferences.GendersTooLong)}
  {
    var input := FormInput(Number(20), Number(30), ["M", "F", "O"], Missing);
    ReprOfCodesLength(input.genders);
    assert |Repr(input.genders)| == 15;
  }

  /**
   * A distance that is not a whole number is refused with the distance error,
   * however sound the rest of the form is.
   */
  lemma NonNumericDistanceRefused(instance: Preferences.Preference, input: FormInput)
    requires input.maxDistance.NotANumber?
    ensures Validate(instance, input).Err?
    ensures MaxDistanceInvalid in Validate(instance, input).error
  {
    assert MaxDistanceInvalid in FieldErrors(input);
  }

  /**
   * With the corrected validation, every selection the checkboxes can submit (each
   * code at most once) validates together with a sound age band, and saves.
   */
  lemma CheckboxSelectionsAcceptedWhenCorrected(input: FormInput, instance: Preferences.Preference)
    requires input.minAge.Number? && input.maxAge.Number?
    requires Profiles.MinAge <= input.minAge.value < input.maxAge.value <= Profiles.MaxAge
    requires |input.genders| > 0
    requires forall i | 0 <= i < |input.genders| :: input.genders[i] in Profiles.GenderCodes
    requires Distinct(input.genders)
    requires DistanceAccepted(input.maxDistance)
    ensures ValidateCorrected(instance, input).Ok?
    ensures Save(instance, ValidateCorrected(instance, input).value).Ok?
  {
    DistinctCodesAtMostThree(input.genders);
    JoinOfCodesLength(input.genders);
  }

  /** Joining `n` one-character codes gives `2n - 1` characters. */
  lemma {:induction false} JoinOfCodesLength(gs: seq<string>)
    requires |gs| > 0
    requires forall i | 0 <= i < |gs| :: gs[i] in Profiles.GenderCodes
    ensures |Text.Join(gs, Preferences.GenderSeparator)| == 2 * |gs| - 1
  {
    assert |gs[0]| == 1 by {
      assert gs[0] == "M" || gs[0] == "F" || gs[0] == "O";
    }
    if |gs| > 1 {
      JoinOfCodesLength(gs[1..]);
    }
  }

  /** A selection without repeats holds at most the three codes. */
  lemma DistinctCodesAtMostThree(gs: seq<string>)
    requires forall i | 0 <= i < |gs| :: gs[i] in Profiles.GenderCodes
    requires Distinct(gs)
    ensures |gs| <= 3
  {
    var elems := set i | 0 <= i < |gs| :: gs[i];
    DistinctElements(gs);
    assert elems <= Profiles.GenderCodes;
    assert |Profiles.GenderCodes| == 3;
    SubsetCard(elems, Profiles.GenderCodes);
  }

  /** A sequence without repeats has as many distinct elements as entries. */
  lemma {:induction false} DistinctElements(gs: seq<string>)
    requires Distinct(gs)
    ensures |set i | 0 <= i < |gs| :: gs[i]| == |gs|
  {
    if |gs| > 0 {
      var rest := gs[1..];
      DistinctElements(rest);
      var restElems := set i | 0 <= i < |rest| :: rest[i];
      var elems := set i | 0 <= i < |gs| :: gs[i];
      assert elems == {gs[0]} + restElems by {
        forall x | x in elems ensures x in {gs[0]} + restElems {
          var i :| 0 <= i < |gs| && gs[i] == x;
          if i > 0 { assert rest[i - 1] == x; }
        }
        forall x | x in restElems ensures x in elems {
          var i :| 0 <= i < |rest| && rest[i] == x;
          assert gs[i + 1] == x;
        }
      }
      assert gs[0] !in restElems;
    }
  }

  /** A subset is no larger than its superset. */
  lemma SubsetCard<T>(a: set<T>, b: set<T>)
    requires a <= b
    ensures |a| <= |b|
  {
    assert b == a + (b - a);
  }
}

=== FILE: preferences.dfy ===
/**
 * A user's matching preferences (`Preference` in dating/models.py): the stored
 * age band and comma-separated gender codes, the validation `save` runs through
 * `full_clean`, and the list view of the gender codes.
 */
module Preferences {

  import opened Results
  import Text
  import Profiles

  /** The separator of the stored gender list. */
  const GenderSeparator: char := ','

  /** The `max_length` of `preferred_genders`. */
  const GendersMaxLength: nat := 10

  /** One preference row; `maxDistance` is the optional, unused `max_distance`. */
  datatype Preference = Preference(
    minAge: nat,
    maxAge: nat,
    preferredGenders: string,
    maxDistance: Option<nat>)

  /** A preference created without explicit values: ages 18 to 99, every gender. */
  const DefaultPreference: Preference := Preference(18, 99, "M,F,O", None)

  /** The errors `full_clean` can report for a preference. */
  datatype PreferenceError =
    | MinAgeBelow | MinAgeAbove
    | MaxAgeBelow | MaxAgeAbove
    | GendersBlank | GendersTooLong
    | AgeBandEmpty

  /** The columns of a preference that carry validators, as `full_clean`'s `exclude` names them. */
  datatype Field = MinAgeField | MaxAgeField | GendersField | DistanceField

  /**
   * The errors the validators of one column report: both ages in 18..99, the gender
   * list required and at most 10 characters, the distance (`blank=True`) nothing
   * beyond what its type already guarantees.
   */
  function ErrorsOf(p: Preference, f: Field): set<PreferenceError>
  {
    match f
    case MinAgeField =>
      (if p.minAge < Profiles.MinAge then {MinAgeBelow} else {}) +
      (if p.minAge > Profiles.MaxAge then {MinAgeAbove} else {})
    case MaxAgeField =>
      (if p.maxAge < Profiles.MinAge then {MaxAgeBelow} else {}) +
      (if p.maxAge > Profiles.MaxAge then {MaxAgeAbove} else {})
    case GendersField =>
      if p.preferredGenders == "" then {GendersBlank}
      else if |p.preferredGenders| > GendersMaxLength then {GendersTooLong}
      else {}
    case DistanceField => {}
  }

  /** `clean_fields`: the errors of every column's validators. */
  function FieldErrors(p: Preference): (errs: set<PreferenceError>)
    ensures errs == {} <==>
      && Profiles.MinAge <= p.minAge <= Profiles.MaxAge
      && Profiles.MinAge <= p.maxAge <= Profiles.MaxAge
      && 0 < |p.preferredGenders| <= GendersMaxLength
    ensures AgeBandEmpty !in errs
    ensures GendersBlank in errs ==> GendersTooLong !in errs
  {
    ErrorsOf(p, MinAgeField) + ErrorsOf(p, MaxAgeField) + ErrorsOf(p, GendersField) + ErrorsOf(p, DistanceField)
  }

  /** `Preference.clean`: the minimum age must be strictly below the maximum. */
  function Clean(p: Preference): (r: Option<PreferenceError>)
    ensures r.Some? <==> p.minAge >= p.maxAge
    ensures r.Some? ==> r.value == AgeBandEmpty
  {
    if p.minAge >= p.maxAge then Some(AgeBandEmpty) else None
  }

  /**
   * `full_clean(exclude)`: the validators of the columns not in `exclude`, together
   * with the model's `clean`, which runs regardless of both.
   */
  function FullCleanExcept(p: Preference, exclude: set<Field>): (errs: set<PreferenceError>)
    ensures AgeBandEmpty in errs <==> p.minAge >= p.maxAge
    ensures errs == {} <==> p.minAge < p.maxAge && forall f | f !in exclude :: ErrorsOf(p, f) == {}
    ensures errs <= FieldErrors(p) + {AgeBandEmpty}
    ensures forall f | f !in exclude :: ErrorsOf(p, f) <= errs
    ensures forall e | e in errs :: e == AgeBandEmpty || exists f | f !in exclude :: e in ErrorsOf(p, f)
  {
    (if MinAgeField in exclude then {} else ErrorsOf(p, MinAgeField)) +
    (if MaxAgeField in exclude then {} else ErrorsOf(p, MaxAgeField)) +
    (if GendersField in exclude then {} else ErrorsOf(p, GendersField)) +
    (if DistanceField in exclude then {} else ErrorsOf(p, DistanceField)) +
    (match Clean(p) case Some(e) => {e} case None => {})
  }

  /** `full_clean()`: the field errors together with the model's `clean`, which runs regardless. */
  function FullClean(p: Preference): (errs: set<PreferenceError>)
    ensures AgeBandEmpty in errs <==> p.minAge >= p.maxAge
    ensures errs == FieldErrors(p) + (if p.minAge >= p.maxAge then {AgeBandEmpty} else {})
  {
    FullCleanExcept(p, {})
  }

  /** The preferences a stored row always satisfies. */
  predicate Storable(p: Preference)
  {
    && Profiles.MinAge <= p.minAge < p.maxAge <= Profiles.MaxAge
    && 0 < |p.preferredGenders| <= GendersMaxLength
  }

  /** `Preference.save`: stores `p` only when `full_clean` finds nothing. */
  function Save(p: Preference): (r: Result<Preference, set<PreferenceError>>)
    ensures r.Ok? <==> Storable(p)
    ensures r.Ok? ==> r.value == p
    ensures r.Err? ==> r.error != {}
    ensures p.minAge >= p.maxAge ==> r.Err? && AgeBandEmpty in r.error
  {
    var errs := FullClean(p);
    if errs == {} then Ok(p) else Err(errs)
  }

  /** The defaults form a valid preference. */
  lemma DefaultStorable()
    ensures Save(DefaultPreference) == Ok(DefaultPreference)
  {
  }

  /** `get_preferred_genders_list`: the stored list split on commas, each piece stripped. */
  function PreferredGendersList(p: Preference): (gs: seq<string>)
    ensures |gs| == |Text.Split(p.preferredGenders, GenderSeparator)| >= 1
    ensures forall i | 0 <= i < |gs| ::
      Text.StrippedFrom(gs[i], Text.Split(p.preferredGenders, GenderSeparator)[i])
    ensures forall i | 0 <= i < |gs| :: GenderSeparator !in gs[i]
  {
    var parts := Text.Split(p.preferredGenders, GenderSeparator);
    seq(|parts|, i requires 0 <= i < |parts| => StripPiece(parts[i], GenderSeparator))
  }

  /** `w.strip()`, which keeps a separator-free piece free of the separator. */
  function StripPiece(w: string, sep: char): (r: string)
    requires sep !in w
    ensures Text.StrippedFrom(r, w)
    ensures sep !in r
  {
    Text.StripSpec(w);
    Text.Strip(w)
  }

  /**
   * Round trip: storing a non-empty selection of gender codes joined by commas and
   * reading the list back gives the same selection.
   */
  lemma GendersListRoundTrip(gs: seq<string>, p: Preference)
    requires |gs| >= 1
    requires forall i | 0 <= i < |gs| :: gs[i] in Profiles.GenderCodes
    requires p.preferredGenders == Text.Join(gs, GenderSeparator)
    ensures PreferredGendersList(p) == gs
  {
    forall i | 0 <= i < |gs|
      ensures GenderSeparator !in gs[i] && Text.Strip(gs[i]) == gs[i]
    {
      CodeUntrimmed(gs[i]);
    }
    Text.SplitJoin(gs, GenderSeparator);
    var parts := Text.Split(p.preferredGenders, GenderSeparator);
    assert parts == gs;
  }

  /** A gender code contains no separator and no whitespace to strip. */
  lemma CodeUntrimmed(g: string)
    requires g in Profiles.GenderCodes
    ensures GenderSeparator !in g
    ensures Text.Strip(g) == g
  {
    assert g == "M" || g == "F" || g == "O";
    Text.LetterNotSpace(g[0]);
    Text.StripUntrimmed(g);
  }
}

=== FILE: profiles.dfy ===
/**
 * The dating profile (`Profile` in dating/models.py): the record the discovery
 * feed, the liked list and the matches list show, with the field rules Django
 * validates it against and the `complete_profile` flag.
 */
module Profiles {

  import Results

  /** A Django `User` primary key. */
  type UserId = nat

  /** The bounds of the age validators. */
  const MinAge: nat := 18
  const MaxAge: nat := 99

  /** The stored codes of `GENDER_CHOICES`: Male, Female, Other. */
  const GenderCodes: set<string> := {"M", "F", "O"}

  /** The `max_length` / `MinLengthValidator` limits of the text fields. */
  const LocationMaxLength: nat := 100
  const BioMinLength: nat := 10
  const BioMaxLength: nat := 500
  const InterestsMaxLength: nat := 250

  /**
   * One profile row. `photo` is the stored Cloudinary reference, empty when there
   * is none; `createdAt` is an abstract timestamp (larger is later).
   */
  datatype Profile = Profile(
    id: nat,
    user: UserId,
    age: nat,
    gender: string,
    location: string,
    bio: string,
    interests: string,
    photo: string,
    createdAt: int,
    isProfileComplete: bool)

  /** The field errors the profile form can report for a profile. */
  datatype ProfileError =
    | AgeBelowMin | AgeAboveMax
    | GenderBlank | GenderNotAChoice
    | BioBlank | BioTooShort | BioTooLong
    | LocationTooLong | InterestsTooLong

  /**
   * The field errors the profile form (`ProfileCreate` in dating/views.py) reports
   * for `p`: the checks of the form fields Django derives from the model, then the
   * model's own validators on the built instance. A required field that is blank
   * reports only that; a choice field reports a non-choice; the length checks of
   * one field all run. The bio's 500-character limit is a form-field check only: a
   * `TextField` passes `max_length` to its form field and not to its validators.
   * The text fields hold the values as the form's `CharField`s leave them, with
   * surrounding whitespace already stripped, so the lengths are of stripped text.
   */
  function ProfileErrors(p: Profile): (errs: set<ProfileError>)
    ensures errs == {} <==>
      && MinAge <= p.age <= MaxAge
      && p.gender in GenderCodes
      && BioMinLength <= |p.bio| <= BioMaxLength
      && |p.location| <= LocationMaxLength
      && |p.interests| <= InterestsMaxLength
    ensures GenderBlank in errs ==> GenderNotAChoice !in errs
    ensures BioBlank in errs ==> BioTooShort !in errs && BioTooLong !in errs
  {
    var age :=
      (if p.age < MinAge then {AgeBelowMin} else {}) +
      (if p.age > MaxAge then {AgeAboveMax} else {});
    var gender :=
      if p.gender == "" then {GenderBlank}
      else if p.gender !in GenderCodes then {GenderNotAChoice}
      else {};
    var bio :=
      if p.bio == "" then {BioBlank}
      else
        (if |p.bio| < BioMinLength then {BioTooShort} else {}) +
        (if |p.bio| > BioMaxLength then {BioTooLong} else {});
    var location := if |p.location| > LocationMaxLength then {LocationTooLong} else {};
    var interests := if |p.interests| > InterestsMaxLength then {InterestsTooLong} else {};
    age + gender + bio + location + interests
  }

  /** The truthiness test `complete_profile` applies to the six fields. */
  predicate HasAllDetails(p: Profile)
  {
    p.bio != "" && p.age != 0 && p.gender != "" &&
    p.location != "" && p.interests != "" && p.photo != ""
  }

  /**
   * `complete_profile`: recomputes `is_profile_complete` and saves. Only that flag
   * changes.
   */
  function CompleteProfile(p: Profile): (q: Profile)
    ensures q.(isProfileComplete := p.isProfileComplete) == p
    ensures q.isProfileComplete <==> HasAllDetails(p)
  {
    p.(isProfileComplete := HasAllDetails(p))
  }

  /** Completing twice is completing once. */
  lemma CompleteProfileIdempotent(p: Profile)
    ensures CompleteProfile(CompleteProfile(p)) == CompleteProfile(p)
  {
  }

  /**
   * For a profile that passes field validation, bio, age and gender are already
   * present, so it is complete exactly when location, interests and photo are given.
   */
  lemma ValidProfileCompleteness(p: Profile)
    requires ProfileErrors(p) == {}
    ensures CompleteProfile(p).isProfileComplete <==>
      p.location != "" && p.interests != "" && p.photo != ""
  {
  }

  /** The user a profile belongs to (the one-to-one `user` field). */
  function UserKey(p: Profile): nat { p.user }

  /** The profile's primary key. */
  function IdKey(p: Profile): nat { p.id }

  /** The first profile of the directory whose `key` is `k`, if there is one. */
  function Find(ps: seq<Profile>, key: Profile -> nat, k: nat): (r: Results.Option<Profile>)
    ensures r.Some? ==> r.value in ps && key(r.value) == k
    ensures r.None? <==> forall i | 0 <= i < |ps| :: key(ps[i]) != k
  {
    if |ps| == 0 then Results.None
    else if key(ps[0]) == k then Results.Some(ps[0])
    else Find(ps[1..], key, k)
  }

  /** The profile of `user`, if the directory holds one (the `user.profile` accessor). */
  function ProfileOf(ps: seq<Profile>, user: UserId): Results.Option<Profile>
  {
    Find(ps, UserKey, user)
  }

  /** The profile whose primary key is `id` (`get_object_or_404(Profile, id=...)`). */
  function ProfileById(ps: seq<Profile>, id: nat): Results.Option<Profile>
  {
    Find(ps, IdKey, id)
  }

  /** Profile keys are unique and `user` is one-to-one, as the database guarantees. */
  ghost predicate UniqueProfiles(ps: seq<Profile>)
  {
    forall i, j | 0 <= i < j < |ps| :: ps[i].id != ps[j].id && ps[i].user != ps[j].user
  }

  /** When no two profiles share a key, looking a profile's key up finds that profile. */
  lemma {:induction false} FindUnique(ps: seq<Profile>, key: Profile -> nat, p: Profile)
    requires forall i, j | 0 <= i < j < |ps| :: key(ps[i]) != key(ps[j])
    requires p in ps
    ensures Find(ps, key, key(p)) == Results.Some(p)
  {
    if ps[0] != p {
      assert p in ps[1..];
      FindUnique(ps[1..], key, p);
    }
  }

  /** In a well-formed directory, the profile found for a user is that user's only profile. */
  lemma ProfileOfUnique(ps: seq<Profile>, p: Profile)
    requires UniqueProfiles(ps)
    requires p in ps
    ensures ProfileOf(ps, p.user) == Results.Some(p)
  {
    FindUnique(ps, UserKey, p);
  }

  /** In a well-formed directory, looking a profile up by its key finds that profile. */
  lemma ProfileByIdUnique(ps: seq<Profile>, p: Profile)
    requires UniqueProfiles(ps)
    requires p in ps
    ensures ProfileById(ps, p.id) == Results.Some(p)
  {
    FindUnique(ps, IdKey, p);
  }
}

=== FILE: results.dfy ===
/** Failure-carrying values shared by every module of the model. */
module Results {

  /** An optional value: Django's `None` versus a present value. */
  datatype Option<+T> = None | Some(value: T)

  /** The outcome of an operation that either succeeds with a value or fails with an error. */
  datatype Result<+T, +E> = Ok(value: T) | Err(error: E)
}

=== FILE: services.dfy ===
/**
 * The discovery feed (`get_discoverable_profiles` in connections/services.py):
 * every profile except the requester's own and those of users the requester has
 * liked or passed, newest first or in random order.
 */
module Services {

  import opened Results
  import opened ConnectionModels
  import Profiles
  import Preferences
  import Ordering

  type Profile = Profiles.Profile

  /** The profiles of `ps`, in order, whose user is not in `users` (`.exclude(user_id__in=...)`). */
  function ExcludeUsers(ps: seq<Profile>, users: set<UserId>): (r: seq<Profile>)
    ensures forall p :: p in r <==> p in ps && p.user !in users
    ensures multiset(r) <= multiset(ps)
    ensures forall p: Profile | p.user !in users :: multiset(r)[p] == multiset(ps)[p]
  {
    if |ps| == 0 then []
    else
      assert ps == [ps[0]] + ps[1..];
      var rest := ExcludeUsers(ps[1..], users);
      if ps[0].user in users then rest else [ps[0]] + rest
  }

  /** The key that sorts newest first (`order_by('-createdAt')`). */
  function NewestFirstKey(p: Profile): int { -p.createdAt }

  /** Profiles in non-increasing order of `createdAt`. */
  ghost predicate NewestFirst(ps: seq<Profile>)
  {
    forall i, j | 0 <= i < j < |ps| :: ps[i].createdAt >= ps[j].createdAt
  }

  /**
   * The order of the feed: `order_by('?')` for `"random"`, which sorts on the random
   * key the database draws for each row, and newest first for any other value.
   */
  function ArrangeFeed(candidates: seq<Profile>, orderBy: string, randomKey: Profile -> int)
    : (feed: seq<Profile>)
    ensures multiset(feed) == multiset(candidates)
    ensures forall p :: p in feed <==> p in candidates
    ensures orderBy != "random" ==> NewestFirst(feed)
  {
    var feed := if orderBy == "random" then Ordering.SortBy(candidates, randomKey)
                else Ordering.SortBy(candidates, NewestFirstKey);
    assert forall p :: p in feed <==> p in candidates by {
      forall p ensures p in feed <==> p in candidates {
        assert p in feed <==> p in multiset(feed);
        assert p in candidates <==> p in multiset(candidates);
      }
    }
    feed
  }

  /**
   * `get_discoverable_profiles(user, preferences, order_by)`. The preferences are
   * accepted and not consulted. The feed holds each remaining profile of the
   * directory exactly as often as the directory does, so it is exclusion only.
   */
  function Discover(db: Db, user: UserId, preferences: Option<Preferences.Preference>,
                    orderBy: string, randomKey: Profile -> int): (feed: seq<Profile>)
    ensures forall p :: p in feed <==> p in db.profiles && p.user != user && (user, p.user) !in db.likes
    ensures orderBy != "random" ==> NewestFirst(feed)
    ensures multiset(feed) <= multiset(db.profiles)
    ensures forall p: Profile | p.user != user && (user, p.user) !in db.likes ::
      multiset(feed)[p] == multiset(db.profiles)[p]
  {
    var notSelf := ExcludeUsers(db.profiles, {user});
    var notLiked := ExcludeUsers(notSelf, Targets(db.likes, user, Liked));
    var notPassed := ExcludeUsers(notLiked, Targets(db.likes, user, Disliked));
    ExcludedUsers(db.likes, user);
    ChainedExclusions(db.profiles, {user}, Targets(db.likes, user, Liked), Targets(db.likes, user, Disliked));
    ArrangeFeed(notPassed, orderBy, randomKey)
  }

  /** The users the feed leaves out: the requester and everyone the requester liked or passed. */
  lemma ExcludedUsers(likes: LikeTable, user: UserId)
    ensures forall t :: t in {user} + Targets(likes, user, Liked) + Targets(likes, user, Disliked)
                        <==> t == user || (user, t) in likes
  {
  }

  /** Three `exclude` stages in a row act as one stage that excludes all three sets. */
  lemma ChainedExclusions(ps: seq<Profile>, a: set<UserId>, b: set<UserId>, c: set<UserId>)
    ensures var r := ExcludeUsers(ExcludeUsers(ExcludeUsers(ps, a), b), c);
      && (forall p :: p in r <==> p in ps && p.user !in a + b + c)
      && multiset(r) <= multiset(ps)
      && (forall p: Profile | p.user !in a + b + c :: multiset(r)[p] == multiset(ps)[p])
  {
    var r1 := ExcludeUsers(ps, a);
    var r2 := ExcludeUsers(r1, b);
    var r := ExcludeUsers(r2, c);
    assert multiset(r) <= multiset(r2) <= multiset(r1) <= multiset(ps);
  }

  /**
   * Exclusion is by the requester's own likes only: two databases that agree on
   * the profiles and on the rows the requester sent give the same feed, whatever
   * others have sent to the requester or to each other.
   */
  lemma FeedIgnoresOthersLikes(db1: Db, db2: Db, user: UserId, preferences: Option<Preferences.Preference>,
                               orderBy: string, randomKey: Profile -> int)
    requires db1.profiles == db2.profiles
    requires forall t :: (user, t) in db1.likes <==> (user, t) in db2.likes
    requires forall t | (user, t) in db1.likes :: db1.likes[(user, t)] == db2.likes[(user, t)]
    ensures Discover(db1, user, preferences, orderBy, randomKey)
         == Discover(db2, user, preferences, orderBy, randomKey)
  {
    assert Targets(db1.likes, user, Liked) == Targets(db2.likes, user, Liked);
    assert Targets(db1.likes, user, Disliked) == Targets(db2.likes, user, Disliked);
  }
}

=== FILE: signals.dfy ===
/**
 * The reciprocity hook (`create_match_on_mutual_like` in connections/signals.py),
 * which Django runs after every successful save of a `Like`.
 */
module Signals {

  import opened Results
  import opened ConnectionModels

  /** `user` holds a `like` from `from` (the reverse-like lookup). */
  predicate LikesBack(likes: LikeTable, from: UserId, user: UserId)
  {
    (from, user) in likes && likes[(from, user)] == Liked
  }

  /**
   * The post-save hook for the `Like` row `from -> to` with `action`. It acts only
   * on a newly created `like`: when `to` already likes `from` back, it orders the
   * pair by id and gets or creates their match. Nothing but the match table changes,
   * and that only by appending one row.
   */
  function OnLikeSaved(db: Db, from: UserId, to: UserId, action: Action, created: bool, now: int)
    : (r: Db)
    requires from != to
    ensures r.profiles == db.profiles && r.likes == db.likes
    ensures db.matches <= r.matches && |r.matches| <= |db.matches| + 1
    ensures !created || action != Liked ==> r == db
    ensures r != db ==> created && action == Liked && LikesBack(db.likes, to, from)
    ensures created && action == Liked && LikesBack(db.likes, to, from) ==>
      HasMatchRow(r.matches, Min(from, to), Max(from, to))
    ensures |r.matches| == |db.matches| + 1 ==>
      var m := r.matches[|db.matches|];
      m.user1 == Min(from, to) && m.user2 == Max(from, to) && m.user1 < m.user2 &&
      m.isActive && m.createdAt == now
    ensures CanonicalMatches(db.matches) ==> CanonicalMatches(r.matches)
  {
    if !created || action != Liked then db
    else if !LikesBack(db.likes, to, from) then db
    else
      var user1, user2 := Min(from, to), Max(from, to);
      match GetOrCreateMatch(db.matches, user1, user2, now)
      case Ok(ms) => db.(matches := ms)
      case Err(_) => assert false; db
  }

  /** The lower and the higher of two ids, as the hook's swap orders them. */
  function Min(a: UserId, b: UserId): UserId { if a > b then b else a }
  function Max(a: UserId, b: UserId): UserId { if a > b then a else b }

  /** Running the hook a second time for the same row changes nothing more. */
  lemma OnLikeSavedIdempotent(db: Db, from: UserId, to: UserId, action: Action, created: bool, now: int, later: int)
    requires from != to
    ensures OnLikeSaved(OnLikeSaved(db, from, to, action, created, now), from, to, action, created, later)
         == OnLikeSaved(db, from, to, action, created, now)
  {
  }

  /** The first like of a pair never creates a match: there is no reverse like yet. */
  lemma FirstLikeNoMatch(db: Db, from: UserId, to: UserId, created: bool, now: int)
    requires from != to
    requires (to, from) !in db.likes
    ensures OnLikeSaved(db, from, to, Liked, created, now) == db
  {
  }
}

=== FILE: text.dfy ===
/**
 * The string operations the preference code relies on, with Python's meaning:
 * `str.split(sep)`, `sep.join(parts)` and `str.strip()`.
 */
module Text {

  /** The code point ranges Python's `str.isspace()` accepts, which `str.strip()` removes. */
  const SpaceRanges: seq<(char, char)> := [
    ('\t', '\r'), ('\U{1C}', ' '), ('\U{85}', '\U{85}'), ('\U{A0}', '\U{A0}'),
    ('\U{1680}', '\U{1680}'), ('\U{2000}', '\U{200A}'), ('\U{2028}', '\U{2029}'),
    ('\U{202F}', '\U{202F}'), ('\U{205F}', '\U{205F}'), ('\U{3000}', '\U{3000}')]

  /** `c` lies in one of the inclusive ranges `rs`. */
  predicate InRanges(c: char, rs: seq<(char, char)>)
  {
    |rs| > 0 && (rs[0].0 <= c <= rs[0].1 || InRanges(c, rs[1..]))
  }

  /** A character outside every range of `rs` is in none of them. */
  lemma {:induction false} OutsideRanges(c: char, rs: seq<(char, char)>)
    requires forall i | 0 <= i < |rs| :: c < rs[i].0 || rs[i].1 < c
    ensures !InRanges(c, rs)
  {
    if |rs| > 0 {
      OutsideRanges(c, rs[1..]);
    }
  }

  /** ASCII letters are not whitespace. */
  lemma LetterNotSpace(c: char)
    requires 'A' <= c <= 'Z' || 'a' <= c <= 'z'
    ensures !IsSpace(c)
  {
    OutsideRanges(c, SpaceRanges);
  }

  /** Python's `c.isspace()`. */
  predicate IsSpace(c: char)
  {
    InRanges(c, SpaceRanges)
  }

  /** `sep.join(parts)`: the parts with one separator between neighbours. */
  function Join(parts: seq<string>, sep: char): string
  {
    if |parts| == 0 then ""
    else if |parts| == 1 then parts[0]
    else parts[0] + [sep] + Join(parts[1..], sep)
  }

  /**
   * `s.split(sep)`: the maximal separator-free pieces of `s`, in order. Like
   * Python, the empty string splits into one empty piece, and joining the pieces
   * back gives `s`.
   */
  function Split(s: string, sep: char): (parts: seq<string>)
    ensures |parts| >= 1
    ensures forall i | 0 <= i < |parts| :: sep !in parts[i]
    ensures Join(parts, sep) == s
  {
    if |s| == 0 then [""]
    else
      var rest := Split(s[1..], sep);
      assert s == [s[0]] + s[1..];
      if s[0] == sep then
        [""] + rest
      else
        var parts := [[s[0]] + rest[0]] + rest[1..];
        assert Join(parts, sep) == s by {
          if |rest| > 1 {
            assert rest == [rest[0]] + rest[1..];
          }
        }
        parts
  }

  /** Splitting a join of separator-free parts gives the parts back. */
  lemma {:induction false} SplitJoin(parts: seq<string>, sep: char)
    requires |parts| >= 1
    requires forall i | 0 <= i < |parts| :: sep !in parts[i]
    ensures Split(Join(parts, sep), sep) == parts
  {
    if |parts| == 1 {
      SplitPiece(parts[0], sep);
    } else {
      SplitJoin(parts[1..], sep);
      SplitPrefix(parts[0], Join(parts[1..], sep), sep);
    }
  }

  /** A separator-free string is a single piece. */
  lemma {:induction false} SplitPiece(w: string, sep: char)
    requires sep !in w
    ensures Split(w, sep) == [w]
  {
    if |w| > 0 {
      SplitPiece(w[1..], sep);
      assert w == [w[0]] + w[1..];
    }
  }

  /** Splitting `w + [sep] + t` for a separator-free `w` puts `w` in front of the pieces of `t`. */
  lemma {:induction false} SplitPrefix(w: string, t: string, sep: char)
    requires sep !in w
    ensures Split(w + [sep] + t, sep) == [w] + Split(t, sep)
  {
    if |w| == 0 {
      assert w + [sep] + t == [sep] + t;
      assert ([sep] + t)[1..] == t;
    } else {
      SplitPrefix(w[1..], t, sep);
      assert (w + [sep] + t)[1..] == w[1..] + [sep] + t;
      assert w == [w[0]] + w[1..];
    }
  }

  /** Every character of `w` is whitespace. */
  predicate AllSpace(w: string)
  {
    forall k | 0 <= k < |w| :: IsSpace(w[k])
  }

  /** How many whitespace characters `s` starts with. */
  function LeadingSpaces(s: string): (n: nat)
    ensures n <= |s|
    ensures AllSpace(s[..n])
    ensures n < |s| ==> !IsSpace(s[n])
  {
    if |s| > 0 && IsSpace(s[0]) then
      var n := 1 + LeadingSpaces(s[1..]);
      assert forall k | 1 <= k < n :: s[..n][k] == s[1..][..n - 1][k - 1];
      n
    else 0
  }

  /** How many whitespace characters `s` ends with. */
  function TrailingSpaces(s: string): (n: nat)
    ensures n <= |s|
    ensures AllSpace(s[|s| - n..])
    ensures n < |s| ==> !IsSpace(s[|s| - n - 1])
  {
    if |s| > 0 && IsSpace(s[|s| - 1]) then
      var init := s[..|s| - 1];
      var m := TrailingSpaces(init);
      var tail := s[|s| - 1 - m..];
      assert tail == init[|init| - m..] + [s[|s| - 1]];
      assert AllSpace(tail) by {
        forall k | 0 <= k < |tail| ensures IsSpace(tail[k]) {
          if k < m {
            assert tail[k] == init[|init| - m..][k];
          }
        }
      }
      assert m + 1 < |s| ==> s[|s| - (m + 1) - 1] == init[|init| - m - 1];
      m + 1
    else 0
  }

  /** Python's `s.strip()`: `s` without leading or trailing whitespace. */
  function Strip(s: string): (r: string)
  {
    var t := s[LeadingSpaces(s)..];
    t[..|t| - TrailingSpaces(t)]
  }

  /**
   * `r` is `s` with its surrounding whitespace cut off: `s` is `r` with whitespace
   * before and after it, and `r` neither starts nor ends with whitespace. At most
   * one `r` has this relation to a given `s`.
   */
  ghost predicate StrippedFrom(r: string, s: string)
  {
    && (|r| > 0 ==> !IsSpace(r[0]) && !IsSpace(r[|r| - 1]))
    && exists before, after :: AllSpace(before) && AllSpace(after) && s == before + r + after
  }

  /** What `Strip` promises: its result is `s` stripped of surrounding whitespace. */
  lemma StripSpec(s: string)
    ensures StrippedFrom(Strip(s), s)
  {
    var lead := LeadingSpaces(s);
    var t := s[lead..];
    var trail := TrailingSpaces(t);
    var r := Strip(s);
    StripEnds(s, lead, t, trail, r);
    SplitThree(s, lead, t, trail, r);
    Surrounded(s, s[..lead], r, t[|t| - trail..]);
  }

  /** Witnesses the decomposition of `s` around `r`. */
  lemma Surrounded(s: string, before: string, r: string, after: string)
    requires AllSpace(before) && AllSpace(after) && s == before + r + after
    ensures exists before', after' :: AllSpace(before') && AllSpace(after') && s == before' + r + after'
  {
  }

  /** The ends of the stripped string are not whitespace. */
  lemma StripEnds(s: string, lead: nat, t: string, trail: nat, r: string)
    requires lead == LeadingSpaces(s) && t == s[lead..]
    requires trail == TrailingSpaces(t) && r == t[..|t| - trail]
    ensures |r| > 0 ==> !IsSpace(r[0]) && !IsSpace(r[|r| - 1])
  {
    if |r| > 0 {
      assert r[0] == s[lead];
      assert r[|r| - 1] == t[|t| - trail - 1];
    }
  }

  /** `s` is its leading whitespace, the stripped string, then the trailing whitespace. */
  lemma SplitThree(s: string, lead: nat, t: string, trail: nat, r: string)
    requires lead <= |s| && t == s[lead..]
    requires trail <= |t| && r == t[..|t| - trail]
    ensures s == s[..lead] + r + t[|t| - trail..]
  {
    assert s == s[..lead] + t;
    assert t == r + t[|t| - trail..];
  }

  /** A string with no whitespace at either end is its own strip. */
  lemma StripUntrimmed(s: string)
    requires |s| > 0 ==> !IsSpace(s[0]) && !IsSpace(s[|s| - 1])
    ensures Strip(s) == s
  {
  }
}

=== FILE: views.dfy ===
/**
 * The connection views (connections/views.py) as transitions and queries over the
 * database: like and pass, the match check, the matches list and the liked list.
 * The HTTP side is reduced to success or one of the view's errors.
 */
module Views {

  import opened Results
  import opened ConnectionModels
  import Profiles
  import Signals
  import Ordering
  import Services

  type Profile = Profiles.Profile

  /** The error answers of the like and pass views. */
  datatype ViewError =
    | NoProfile      // the requester has no profile
    | NotFound       // no profile has the given id
    | OwnProfile     // the profile is the requester's own

  /** The success answer of the like view: whether it was a repeat, and `is_match`. */
  datatype LikeReply = LikeReply(alreadyLiked: bool, isMatch: bool)

  /** The success answer of the pass view: whether it was a repeat. */
  datatype PassReply = PassReply(alreadyPassed: bool)

  /** The database after a request, and the answer. */
  datatype Response<R> = Response(db: Db, answer: Result<R, ViewError>)

  /**
   * `_check_match`: an active match stores the pair, in either order. Put another
   * way, some active match has `a` as a member and `b` as `a`'s other user.
   */
  predicate IsMatch(ms: MatchTable, a: UserId, b: UserId): (r: bool)
    ensures r <==> exists i | 0 <= i < |ms| ::
      ms[i].isActive && (ms[i].user1 == a || ms[i].user2 == a) && OtherUser(ms[i], a) == b
  {
    exists i | 0 <= i < |ms| ::
      ms[i].isActive &&
      ((ms[i].user1 == a && ms[i].user2 == b) || (ms[i].user1 == b && ms[i].user2 == a))
  }

  /** The target of a like or pass, after the view's checks. */
  function Target(db: Db, requester: UserId, profileId: nat): (r: Result<Profile, ViewError>)
    ensures r.Ok? ==> r.value in db.profiles && r.value.id == profileId && r.value.user != requester
    ensures r == Err(NoProfile) <==> Profiles.ProfileOf(db.profiles, requester).None?
    ensures r == Err(NotFound) <==>
      Profiles.ProfileOf(db.profiles, requester).Some? && Profiles.ProfileById(db.profiles, profileId).None?
    ensures r == Err(OwnProfile) <==>
      && Profiles.ProfileOf(db.profiles, requester).Some?
      && Profiles.ProfileById(db.profiles, profileId).Some?
      && Profiles.ProfileById(db.profiles, profileId).value.user == requester
    ensures r.Ok? ==> Profiles.ProfileById(db.profiles, profileId) == Some(r.value)
  {
    if Profiles.ProfileOf(db.profiles, requester).None? then Err(NoProfile)
    else match Profiles.ProfileById(db.profiles, profileId)
      case None => Err(NotFound)
      case Some(target) => if target.user == requester then Err(OwnProfile) else Ok(target)
  }

  /**
   * `LikeProfileView.post`. A repeated like answers success and writes nothing. A
   * pass is flipped to a like in place: that is an update, so the hook does not act.
   * With no row, a `like` is inserted and the hook may create the match. `is_match`
   * is read from the database afterwards.
   */
  function LikeProfile(db: Db, requester: UserId, profileId: nat, now: int): (r: Response<LikeReply>)
    ensures r.answer.Ok? <==> Target(db, requester, profileId).Ok?
    ensures r.answer.Err? ==> r.db == db && r.answer.error == Target(db, requester, profileId).error
    ensures r.answer.Ok? ==>
      var to := Target(db, requester, profileId).value.user;
      && r.db.profiles == db.profiles
      && r.db.likes == db.likes[(requester, to) := Liked]
      && r.answer.value.alreadyLiked == ((requester, to) in db.likes && db.likes[(requester, to)] == Liked)
      && r.answer.value.isMatch == IsMatch(r.db.matches, requester, to)
      && db.matches <= r.db.matches
    ensures r.answer.Ok? && (r.answer.value.alreadyLiked || (requester, Target(db, requester, profileId).value.user) in db.likes)
      ==> r.db.matches == db.matches
    ensures r.answer.Ok? && r.db.matches != db.matches ==>
      var to := Target(db, requester, profileId).value.user;
      (to, requester) in db.likes && db.likes[(to, requester)] == Liked
    ensures r.answer.Ok? ==>
      var to := Target(db, requester, profileId).value.user;
      (requester, to) !in db.likes && Signals.LikesBack(db.likes, to, requester) ==>
        HasMatchRow(r.db.matches, Signals.Min(requester, to), Signals.Max(requester, to))
    ensures CanonicalMatches(db.matches) ==> CanonicalMatches(r.db.matches)
    ensures AllActive(db.matches) ==> AllActive(r.db.matches)
  {
    match Target(db, requester, profileId)
    case Err(e) => Response(db, Err(e))
    case Ok(target) =>
      var to := target.user;
      if (requester, to) in db.likes && db.likes[(requester, to)] == Liked then
        Response(db, Ok(LikeReply(true, IsMatch(db.matches, requester, to))))
      else
        var adding := (requester, to) !in db.likes;
        match SaveLike(db.likes, requester, to, Liked, adding)
        case Ok(saved) =>
          var db' := Signals.OnLikeSaved(db.(likes := saved.likes), requester, to, Liked, saved.created, now);
          Response(db', Ok(LikeReply(false, IsMatch(db'.matches, requester, to))))
        case Err(_) => assert false; Response(db, Err(OwnProfile))
  }

  /**
   * The like view as evidently intended: a pass flipped to a like counts as a new
   * like for the hook, so liking back after a pass also creates the match. It
   * differs from `LikeProfile`, the view as written, only in telling the hook that
   * the row became a like.
   */
  function LikeProfileCorrected(db: Db, requester: UserId, profileId: nat, now: int)
    : (r: Response<LikeReply>)
    ensures r.answer.Ok? <==> Target(db, requester, profileId).Ok?
    ensures r.answer.Err? ==> r.db == db && r.answer.error == Target(db, requester, profileId).error
    ensures r.answer.Ok? ==>
      var to := Target(db, requester, profileId).value.user;
      && r.db.profiles == db.profiles
      && r.db.likes == db.likes[(requester, to) := Liked]
      && db.matches <= r.db.matches
      && r.answer.value.isMatch == IsMatch(r.db.matches, requester, to)
      && (!r.answer.value.alreadyLiked && Signals.LikesBack(db.likes, to, requester) ==>
            HasMatchRow(r.db.matches, Signals.Min(requester, to), Signals.Max(requester, to)))
    ensures r.answer.Ok? && r.db.matches != db.matches ==>
      var to := Target(db, requester, profileId).value.user;
      (to, requester) in db.likes && db.likes[(to, requester)] == Liked
    ensures CanonicalMatches(db.matches) ==> CanonicalMatches(r.db.matches)
    ensures AllActive(db.matches) ==> AllActive(r.db.matches)
  {
    match Target(db, requester, profileId)
    case Err(e) => Response(db, Err(e))
    case Ok(target) =>
      var to := target.user;
      if (requester, to) in db.likes && db.likes[(requester, to)] == Liked then
        Response(db, Ok(LikeReply(true, IsMatch(db.matches, requester, to))))
      else
        var adding := (requester, to) !in db.likes;
        match SaveLike(db.likes, requester, to, Liked, adding)
        case Ok(saved) =>
          var db' := Signals.OnLikeSaved(db.(likes := saved.likes), requester, to, Liked, true, now);
          Response(db', Ok(LikeReply(false, IsMatch(db'.matches, requester, to))))
        case Err(_) => assert false; Response(db, Err(OwnProfile))
  }

  /**
   * `PassProfileView.post`: the same decision with `dislike`. The hook runs on the
   * save but never acts on a dislike, so no match is created or changed.
   */
  function PassProfile(db: Db, requester: UserId, profileId: nat, now: int): (r: Response<PassReply>)
    ensures r.answer.Ok? <==> Target(db, requester, profileId).Ok?
    ensures r.answer.Err? ==> r.db == db && r.answer.error == Target(db, requester, profileId).error
    ensures r.db.profiles == db.profiles && r.db.matches == db.matches
    ensures r.answer.Ok? ==>
      var to := Target(db, requester, profileId).value.user;
      && r.db.likes == db.likes[(requester, to) := Disliked]
      && r.answer.value.alreadyPassed == ((requester, to) in db.likes && db.likes[(requester, to)] == Disliked)
  {
    match Target(db, requester, profileId)
    case Err(e) => Response(db, Err(e))
    case Ok(target) =>
      var to := target.user;
      if (requester, to) in db.likes && db.likes[(requester, to)] == Disliked then
        Response(db, Ok(PassReply(true)))
      else
        var adding := (requester, to) !in db.likes;
        match SaveLike(db.likes, requester, to, Disliked, adding)
        case Ok(saved) =>
          var db' := Signals.OnLikeSaved(db.(likes := saved.likes), requester, to, Disliked, saved.created, now);
          Response(db', Ok(PassReply(false)))
        case Err(_) => assert false; Response(db, Err(OwnProfile))
  }

  /** The active matches in which `user` is `user1` or `user2`, in table order. */
  function ActiveMatchesOf(ms: MatchTable, user: UserId): (r: seq<Match>)
    ensures forall m :: m in r <==> m in ms && m.isActive && (m.user1 == user || m.user2 == user)
    ensures multiset(r) <= multiset(ms)
  {
    if |ms| == 0 then []
    else
      assert ms == [ms[0]] + ms[1..];
      var rest := ActiveMatchesOf(ms[1..], user);
      if ms[0].isActive && (ms[0].user1 == user || ms[0].user2 == user) then [ms[0]] + rest else rest
  }

  /** The key that sorts matches newest first (`order_by('-created_at')`). */
  function MatchNewestFirstKey(m: Match): int { -m.createdAt }

  /** One entry of the matches page: the match and the partner's profile. */
  datatype MatchEntry = MatchEntry(matchRow: Match, profile: Profile)

  /** Matches in non-increasing order of `created_at`. */
  ghost predicate MatchesNewestFirst(ms: seq<Match>)
  {
    forall i, j | 0 <= i < j < |ms| :: ms[i].createdAt >= ms[j].createdAt
  }

  /** Entries in non-increasing order of their match's `created_at`. */
  ghost predicate EntriesNewestFirst(es: seq<MatchEntry>)
  {
    forall i, j | 0 <= i < j < |es| :: es[i].matchRow.createdAt >= es[j].matchRow.createdAt
  }

  /** The match rows of a list of entries, in order. */
  function Rows(es: seq<MatchEntry>): (ms: seq<Match>)
    ensures |ms| == |es|
  {
    seq(|es|, i requires 0 <= i < |es| => es[i].matchRow)
  }

  /** `xs` is `ys` with some elements left out and the rest in their order. */
  predicate IsSubsequence<T(==)>(xs: seq<T>, ys: seq<T>)
    decreases |ys|
  {
    || |xs| == 0
    || (&& |ys| > 0
        && ((xs[0] == ys[0] && IsSubsequence(xs[1..], ys[1..])) || IsSubsequence(xs, ys[1..])))
  }

  /**
   * The loop of `MatchesListView.get_context_data`: pairs each match with the
   * profile of the other user, skipping a match whose partner has no profile.
   */
  function WithPartnerProfiles(rows: seq<Match>, user: UserId, ps: seq<Profile>): (r: seq<MatchEntry>)
    ensures forall e :: e in r <==>
      e.matchRow in rows && Profiles.ProfileOf(ps, OtherUser(e.matchRow, user)) == Some(e.profile)
    ensures IsSubsequence(Rows(r), rows)
    ensures multiset(Rows(r)) <= multiset(rows)
    ensures MatchesNewestFirst(rows) ==> EntriesNewestFirst(r)
  {
    if |rows| == 0 then []
    else
      var rest := WithPartnerProfiles(rows[1..], user, ps);
      match Profiles.ProfileOf(ps, OtherUser(rows[0], user))
      case None =>
        SkipRow(Rows(rest), rows);
        rest
      case Some(p) =>
        var r := [MatchEntry(rows[0], p)] + rest;
        KeepRow(rows, p, rest);
        KeepRowNewestFirst(rows, p, rest);
        r
  }

  /** Leaving out the first row keeps a subsequence of the rest a subsequence. */
  lemma SkipRow(xs: seq<Match>, rows: seq<Match>)
    requires |rows| > 0
    requires IsSubsequence(xs, rows[1..]) && multiset(xs) <= multiset(rows[1..])
    ensures IsSubsequence(xs, rows) && multiset(xs) <= multiset(rows)
  {
    assert rows == [rows[0]] + rows[1..];
  }

  /** Keeping the first row in front of a subsequence of the rest gives a subsequence. */
  lemma KeepRow(rows: seq<Match>, p: Profile, rest: seq<MatchEntry>)
    requires |rows| > 0
    requires IsSubsequence(Rows(rest), rows[1..]) && multiset(Rows(rest)) <= multiset(rows[1..])
    ensures IsSubsequence(Rows([MatchEntry(rows[0], p)] + rest), rows)
    ensures multiset(Rows([MatchEntry(rows[0], p)] + rest)) <= multiset(rows)
  {
    var r := [MatchEntry(rows[0], p)] + rest;
    assert Rows(r) == [rows[0]] + Rows(rest);
    assert Rows(r)[1..] == Rows(rest);
    assert rows == [rows[0]] + rows[1..];
  }

  /** An entry for the newest row stays in front of the entries of older rows. */
  lemma KeepRowNewestFirst(rows: seq<Match>, p: Profile, rest: seq<MatchEntry>)
    requires |rows| > 0
    requires forall e | e in rest :: e.matchRow in rows[1..]
    requires MatchesNewestFirst(rows[1..]) ==> EntriesNewestFirst(rest)
    ensures MatchesNewestFirst(rows) ==> EntriesNewestFirst([MatchEntry(rows[0], p)] + rest)
  {
    var r := [MatchEntry(rows[0], p)] + rest;
    if MatchesNewestFirst(rows) {
      assert MatchesNewestFirst(rows[1..]);
      forall j | 0 < j < |r| ensures r[0].matchRow.createdAt >= r[j].matchRow.createdAt {
        assert r[j] in rest;
        var k :| 0 <= k < |rows[1..]| && rows[1..][k] == r[j].matchRow;
        assert rows[k + 1] == r[j].matchRow;
      }
    }
  }

  /**
   * The matches page (`MatchesListView`): the active matches of `user`, newest first,
   * each with the partner's profile, leaving out partners without one. No match is
   * listed more often than the table holds it.
   */
  function MatchesList(db: Db, user: UserId): (r: seq<MatchEntry>)
    ensures forall e :: e in r <==>
      && e.matchRow in db.matches && e.matchRow.isActive
      && (e.matchRow.user1 == user || e.matchRow.user2 == user)
      && Profiles.ProfileOf(db.profiles, OtherUser(e.matchRow, user)) == Some(e.profile)
    ensures EntriesNewestFirst(r)
    ensures multiset(Rows(r)) <= multiset(db.matches)
  {
    var active := ActiveMatchesOf(db.matches, user);
    var rows := Ordering.SortBy(active, MatchNewestFirstKey);
    assert forall m :: m in rows <==> m in active by {
      forall m ensures m in rows <==> m in active {
        assert m in rows <==> m in multiset(rows);
        assert m in active <==> m in multiset(active);
      }
    }
    WithPartnerProfiles(rows, user, db.profiles)
  }

  /** The profiles of `ps`, in order, whose user is in `users` (`.filter(user_id__in=...)`). */
  function KeepUsers(ps: seq<Profile>, users: set<UserId>): (r: seq<Profile>)
    ensures forall p :: p in r <==> p in ps && p.user in users
    ensures multiset(r) <= multiset(ps)
  {
    if |ps| == 0 then []
    else
      assert ps == [ps[0]] + ps[1..];
      var rest := KeepUsers(ps[1..], users);
      if ps[0].user in users then [ps[0]] + rest else rest
  }

  /**
   * The liked page (`LikedProfilesView`): the profiles of the users `user` has a
   * `like` for, newest first; passes are not included.
   */
  function LikedProfiles(db: Db, user: UserId): (r: seq<Profile>)
    ensures forall p :: p in r <==>
      p in db.profiles && (user, p.user) in db.likes && db.likes[(user, p.user)] == Liked
    ensures Services.NewestFirst(r)
    ensures multiset(r) <= multiset(db.profiles)
  {
    var liked := KeepUsers(db.profiles, Targets(db.likes, user, Liked));
    var r := Ordering.SortBy(liked, Services.NewestFirstKey);
    assert forall p :: p in r <==> p in liked by {
      forall p ensures p in r <==> p in liked {
        assert p in r <==> p in multiset(r);
        assert p in liked <==> p in multiset(liked);
      }
    }
    r
  }
}
